=== FILE: README.md ===
# randify / PDFtimate in Dafny

This project models the core of a small Python library that propagates probability
distributions through ordinary functions by Monte Carlo sampling. It has three parts,
and the first two exist in two generations: the newer `randify` package and the older
`PDFtimate` package.

- **RandomVariable** is a value container with two modes.
  - In sample mode it holds an explicit pool of samples.
  - In generator mode it holds a bound sampling callable.
  - Construction dispatches on the arguments. `sample(n)` fills the pool.
  - `__call__(p)` projects every sample onto attribute `p`.
  - The moments (mean, Bessel-corrected variance, skewness, kurtosis) are folds over the pool.
  - `__str__` renders a fixed description.
- **randify** wraps a function `foo`.
  - It resolves a common sample count.
  - It samples the generator-mode inputs and switches them to sample mode.
  - It runs `foo` once per index and reassembles the results into new sample-mode variables.
  - The newer generation first runs `foo` 20 times on a warm-up draw for timing. Output index 0 is that warm-up result.
- **pdf** (newer package only) flattens and concatenates samples into a joint matrix.
  - It checks query arguments against the recorded shapes, with or without a leading batch axis.
  - It returns one density, or one per query row.

Modules:

| module | file | models |
|---|---|---|
| `Outcomes` | outcomes.dfy | `Option`, `Result`, and the Python exceptions the code raises |
| `Host` | host.dfy | the Python reflection the code relies on (`isinstance`, `callable`, `getattr`, `type(...).__name__`, tuple tests), as supplied functions |
| `Variables` | variables.dfy | the random-variable datatype shared by both generations, constructor dispatch, projection and `__str__` |
| `Moments` | moments.dfy | the moment formulas over `real` |
| `RandomVariables` | random_variables.dfy | the newer class (`generator_func`, bulk sampling, four moments) |
| `LegacyRandomVariables` | legacy_random_variables.dfy | the older class (`generator`, mode switch in `sample`, moments of a property) |
| `Engine` | engine.dfy | what both `randify` generations share: argument classification, sample-count agreement, per-index arguments, the Monte Carlo loop, reassembly |
| `Propagation` | propagation.dfy | the newer `randify(N, duration, verbose)` |
| `LegacyPropagation` | legacy_propagation.dfy | the older `randify(foo, N)` |
| `Density` | density.dfy | the shape logic of `pdf` |

Modelling choices:

- **Random variables** are a tagged datatype.
  - `SampleBacked(pool, example, typeName)` is sample mode.
  - `GeneratorBacked(gen, drawn, example, typeName)` is generator mode. `drawn` is the pool of the last `sample` call, if any.
  - The newer `sample` keeps generator mode; the newer `randify` switches the mode afterwards. The older `sample` switches the mode itself.
- **Generators** are oracles.
  - `draw(b, k)` is the value of the generator's `k`-th invocation on the bound arguments `b`.
  - `bulk(b, k, n)` is the value of a `k`-th invocation on `b` with `size=n`; `None` stands for an exception.
  - The bound arguments are those the constructor stores (`args[1:]` and `kwargs`, or the keywords other than the generator keyword), so `RandomVariable(np.random.normal, 0, 1)` and `RandomVariable(np.random.normal, 100, 1)` draw from different oracle values.
  - Each variable counts its invocations. A failed bulk attempt still costs one invocation.
- **Aliasing.** The wrapped call may receive the same Python object twice, and `randify` mutates its inputs. So random variables live in a store, and arguments refer to them by index. Both `Randify` methods return the store as the call leaves it, plus the result and the number of calls of `foo`.
- **`foo` and timing.** `foo` is a supplied function that returns a value or raises; nothing in `randify` catches what it raises, so its exception ends the wrapped call with the inputs as mutated so far. The timed sample count `int(20 * duration / duration_foo)` is a supplied integer (`Config.timedCount`).
- **Numbers.** Moments are computed over `real`. `variance ** 1.5` is a supplied function `root`; the lemmas that need it assume it is the exact power (`root(v) >= 0` and `root(v)^2 == v^3`).
- **Errors** are the Python exceptions the code actually raises: `ValueError`, `IndexError`, `TypeError`, `AttributeError`, `ZeroDivisionError`, `AssertionError` and `UnboundLocalError`. An exception of any other class raised by `foo` is `Raised(kind)`, named by its class.

Behaviour of the code worth knowing:

- `sample(n)` on a sample-mode variable does nothing; it does not resample with replacement.
- Projection reads the attribute with `getattr` and does not call it.
- An empty pool fails with `IndexError` (construction) or `ZeroDivisionError` (moments).
- Over exact reals, degenerate pools fail by dividing by zero:
  - skewness on two samples or a constant pool;
  - kurtosis on two or three samples or a constant pool.
- A sample count of 0 or less is not rejected.
  - The newer engine returns pools of length 1 (the warm-up result).
  - The older engine fails with `UnboundLocalError`, because the result structure is never initialised.
- A later result of `foo` that is a longer tuple than the first is silently truncated to the first result's arity.

## Model

| member | source | states |
|---|---|---|
| Variables.Lookup | randify/RandomVariable.py:13-15 | a key is found iff some keyword argument has it, and the value found is bound to it |
| Variables.Without | randify/RandomVariable.py:22-25 | `kwargs.pop(key)` leaves exactly the other keyword arguments |
| Variables.FromPool | randify/RandomVariable.py:32-34 | sample mode succeeds iff the pool is non-empty, keeps the pool and takes its first item as representative; an empty pool raises IndexError |
| Variables.FromGenerator | randify/RandomVariable.py:35-37 | the representative is exactly one generator invocation, and the invocation count goes up by one |
| Variables.Construct | randify/RandomVariable.py:10-38 | dispatch order: positional list, then `samples` keyword, then positional callable (rest bound), then the generator keyword (popped, no positionals), otherwise ValueError; a sample-mode result's representative is its first sample; the type name is that of the representative |
| RandomVariables.Construct | randify/RandomVariable.py:10-38 | with keyword `generator_func`: without list, `samples` or positional callable, construction succeeds iff that keyword holds a callable; generator mode costs one invocation, whose value is the representative |
| LegacyRandomVariables.Construct | PDFtimate/RandomVariable.py:9-37 | the same dispatch with keyword `generator`; generator mode's representative is invocation 0; sample mode's is `samples[0]` |
| RandomVariables.Sample | randify/RandomVariable.py:40-56 | sample mode is left unchanged; generator mode keeps its mode and gets a pool of exactly `max(n, 0)` values: the bulk result when it is valid (length `n`, first element an instance of the representative's type, subclasses included), else consecutive single invocations |
| RandomVariables.SampleOverwrites | randify/RandomVariable.py:40-56 | the pool held before `sample(n)` does not influence the result |
| LegacyRandomVariables.Sample | PDFtimate/RandomVariable.py:39-47 | the result is always in sample mode; generator mode gets a pool of `max(n, 0)` consecutive invocations; sample mode is untouched |
| LegacyRandomVariables.SampleIdempotent | PDFtimate/RandomVariable.py:43-47 | sampling a second time changes nothing |
| Variables.Attrs | randify/RandomVariable.py:67 | the attribute list exists iff every sample has the attribute, and its i-th entry is the i-th sample's attribute |
| Variables.Numbers | randify/RandomVariable.py:75 | the pool reads as numbers iff every sample is numeric, elementwise |
| Variables.Project | randify/RandomVariable.py:64-67 | `__call__(None)` is the variable itself; `__call__(p)` succeeds iff there is a non-empty pool whose samples all have `p`, and gives a sample-mode variable of the same length holding the attributes in order, whose representative is the first sample's attribute and whose type name is that value's; an empty pool raises IndexError, a missing pool or attribute AttributeError; the older `__call__` (PDFtimate/RandomVariable.py:49-56) is the same operation |
| Variables.Str | randify/RandomVariable.py:129-134 | a generator-mode variable prints as `<RandomVariable of type T with NAME distribution`, with the generator's name, and a sample-mode one as `<RandomVariable of type T with custom distribution`; the closing `>` is missing as in the source. The older `__str__` (PDFtimate/RandomVariable.py:83-92) is the same operation |
| Variables.Repr | randify/RandomVariable.py:136-137 | `__repr__` is `__str__` |
| Variables.StrRevealsMode | randify/RandomVariable.py:129-134 | a sample-mode and a generator-mode variable of the same type print differently unless the generator is named `custom` |
| Moments.ExpectedValue | randify/RandomVariable.py:75 | defined iff the pool is non-empty (otherwise ZeroDivisionError), and mean times count is the sum |
| Moments.Variance | randify/RandomVariable.py:83-86 | defined iff there are at least two samples; variance times (n - 1) is the sum of squared deviations from the mean; never negative |
| Moments.VarianceZeroIffConstant | randify/RandomVariable.py:83-86 | with two or more samples the variance is zero exactly when all samples are equal |
| Moments.SquaresNonNegative | randify/RandomVariable.py:84 | the sum of squared deviations is non-negative, and zero iff every sample equals the centre |
| Moments.MeanWithinBounds | randify/RandomVariable.py:75 | the mean lies between any lower and upper bound of the samples |
| Moments.MeanShift | randify/RandomVariable.py:75 | shifting every sample by c shifts the mean by c |
| Moments.VarianceShiftInvariant | randify/RandomVariable.py:83-86 | shifting every sample leaves the variance (and its definedness) unchanged |
| Moments.Skewness | randify/RandomVariable.py:95-101 | on success, skewness times (n-1)(n-2)·variance^1.5 equals n times the sum of cubed deviations, and that denominator is non-zero; otherwise ZeroDivisionError |
| Moments.SkewnessDenominatorZeroIff | randify/RandomVariable.py:100 | the skewness denominator vanishes iff n = 2 or the variance is zero |
| Moments.SkewnessDefinedIff | randify/RandomVariable.py:95-101 | skewness is defined iff there are at least three samples and the pool is not constant |
| Moments.SkewnessNegation | randify/RandomVariable.py:95-101 | negating every sample keeps the variance and negates the skewness |
| Moments.Kurtosis | randify/RandomVariable.py:110-122 | on success, kurtosis times (n-1)(n-2)(n-3)·variance² equals n(n+1) times the sum of fourth-power deviations, and that denominator is non-zero; otherwise ZeroDivisionError |
| Moments.KurtosisDenominatorSign | randify/RandomVariable.py:116-121 | the kurtosis denominator vanishes iff n < 4 or the variance is zero, and is positive otherwise |
| Moments.KurtosisDefinedIff | randify/RandomVariable.py:110-122 | kurtosis is defined iff there are at least four samples and the pool is not constant |
| Moments.KurtosisNonNegative | randify/RandomVariable.py:110-122 | kurtosis is never negative |
| RandomVariables.Pool | randify/RandomVariable.py:75 | the numbers the moments fold over: missing pool raises AttributeError, a non-numeric sample TypeError |
| RandomVariables.ExpectedValue | randify/RandomVariable.py:69-75 | defined iff the pool is numeric and non-empty; mean times count is the sum; otherwise the pool's AttributeError or TypeError, or ZeroDivisionError on an empty pool |
| RandomVariables.Variance | randify/RandomVariable.py:77-86 | defined iff the pool is numeric with two or more samples; the value times (n - 1) is the sum of squared deviations from the mean, non-negative, and zero iff the pool is constant; otherwise the pool's error or ZeroDivisionError |
| RandomVariables.Skewness | randify/RandomVariable.py:88-101 | the value times (n - 1)(n - 2)·variance^1.5 is n·Σ(x - mean)^3; defined only with two or more numeric samples, and with an exact 1.5 power iff three or more that are not constant; otherwise the pool's error or ZeroDivisionError |
| RandomVariables.Kurtosis | randify/RandomVariable.py:103-122 | the value times (n - 1)(n - 2)(n - 3)·variance^2 is n(n + 1)·Σ(x - mean)^4; defined iff the numeric pool has four or more samples and is not constant; never negative; otherwise the pool's error or ZeroDivisionError |
| LegacyRandomVariables.Pool | PDFtimate/RandomVariable.py:58-66 | the samples, or their attribute `p`, read as numbers, entry by entry; AttributeError without samples or when a sample lacks `p`, TypeError when an entry is not numeric |
| LegacyRandomVariables.ExpectedValue | PDFtimate/RandomVariable.py:58-66 | defined iff that list is non-empty; mean times count is the sum; otherwise the list's error or ZeroDivisionError |
| LegacyRandomVariables.Variance | PDFtimate/RandomVariable.py:68-81 | defined iff that list has two or more entries; times (n - 1) it is the sum of squared deviations; otherwise the list's error or ZeroDivisionError |
| LegacyRandomVariables.ExpectedValueOfProjection | PDFtimate/RandomVariable.py:53-66 | on a non-empty sample pool, `expected_value(p)` equals `__call__(p).expected_value()`, errors included (on an empty pool the two differ: ZeroDivisionError against IndexError) |
| LegacyRandomVariables.VarianceOfProjection | PDFtimate/RandomVariable.py:68-81 | on a non-empty sample pool, `variance(p)` equals `__call__(p).variance()`, errors included |
| Engine.Initial | randify/randify.py:26 | keyword values follow the positionals, in order |
| Engine.RandomIndices | randify/randify.py:30-33 | the random-variable positions, increasing, and exactly those |
| Engine.CountFrom | randify/randify.py:41-48 | from a given count, succeeds iff every later sample-mode pool has it; from -1, iff all later sample-mode pools agree; otherwise AssertionError |
| Engine.ResolveCount | randify/randify.py:39-48 | succeeds iff all sample-mode pools have one length, which it returns (or -1 when there is none); otherwise AssertionError |
| Engine.ArgumentsAt | randify/randify.py:84-88 | at index t, plain arguments are kept and each random variable is replaced by its t-th sample |
| Engine.Pick | randify/randify.py:89-93 | a non-tuple first result takes later results whole; an empty-tuple first result takes nothing from any later result; a tuple first result of length k > 0 takes the first `k` entries of a later tuple, and a later non-tuple (TypeError) or shorter tuple (IndexError) fails |
| Engine.PickFirst | randify/randify.py:73-79 | the first result always fits the arity it defines |
| Engine.Assemble | randify/randify.py:100-106 | one sample-mode variable for a non-tuple first result, else one per tuple position, holding exactly the collected columns; each is `RandomVariable(samples=column)`, so its representative is the column's first sample and its type name is that sample's |
| Engine.Collect | randify/randify.py:81-93 | the loop over indices 1 .. n-1 succeeds iff at every index `foo` returns and its result fits the first result's arity; it then calls `foo` max(n - 1, 0) times and column j holds the first result's entry j followed by entry j of each later result; on failure it raises, after t calls, the error of the first failing index t: what `foo` raised there, or the misfit's TypeError or IndexError |
| Engine.Simulate | randify/randify.py:81-106 | the loop and the reassembly together: the result is Ok iff `foo` returns at every later index with a result that fits the first result's arity; on success the outcome is single iff the first result is not a tuple and holds exactly the collected columns after max(n - 1, 0) calls; on failure it is the first failing index's error after t calls |
| Propagation.SampleCount | randify/randify.py:40-64 | the common pool length, else `N`, else the timed count |
| Propagation.WarmUpFrom | randify/randify.py:52-57 | sampling once per position keeps modes and sample-mode variables; succeeds iff no sample-mode pool is empty (else IndexError); plain arguments are kept and sample-mode variables give their first sample |
| Propagation.WarmUpState | randify/randify.py:52-57 | after a successful warm-up each variable has been sampled with `sample(1)` exactly once per position that passes it, and nothing else |
| Propagation.WarmUpValues | randify/randify.py:52-57 | a generator-mode variable at position i passes the first draw of `sample(1)`, taken after one earlier `sample(1)` per earlier position that passes the same variable |
| Propagation.Materialise | randify/randify.py:66-70 | every referenced variable ends in sample mode; each that was in generator mode holds `max(n, 0)` samples and keeps its representative; sample-mode and unreferenced variables are untouched |
| Propagation.MaterialisedDraws | randify/randify.py:66-70 | each referenced variable that was in generator mode becomes `RandomVariable(samples=pool)` over exactly the pool its `sample(n)` drew, and keeps its representative and type name |
| Propagation.MaterialisedPools | randify/randify.py:66-87 | after warm-up and materialisation every referenced pool has exactly `max(n, 0)` samples |
| Propagation.WarmUpDrawIsDiscarded | randify/randify.py:52-79 | for one generator-mode input without bulk form, the warm-up call sees invocation c+1 while the pool read by the loop starts at invocation c+3 |
| Propagation.Propagate | randify/randify.py:38-106 | disagreeing pools raise AssertionError and an empty sample-mode pool IndexError, before `foo` runs; an exception of the first timing call passes through after that one call, with the inputs warmed up; otherwise every pool read is in bounds, generator-mode inputs end in sample mode with the resolved number of samples, sample-mode inputs are untouched, the call fails only when `foo` raises at a later index or its result there does not fit the first result's arity, and then with the first failing index's error after 20 + t calls; on success `foo` runs 20 + max(n - 1, 0) times, the output is single iff the warm-up result is not a tuple, and column j holds the warm-up result's entry j and then entry j of the result at each index 1 .. n-1 |
| Propagation.Randify | randify/randify.py:23-106 | without a random argument the call is `foo(*args, **kwargs)`, once, with the store untouched and what `foo` raises passed through; with one, the whole contract of `Propagate` holds for the arguments in call order |
| LegacyPropagation.SampleCount | PDFtimate/randify.py:30-41 | the common pool length, else `N`, else 100000 when `N` is -1 |
| LegacyPropagation.Materialise | PDFtimate/randify.py:43-46 | every referenced variable ends in sample mode; each that was in generator mode is exactly its own `sample(n)`; others are untouched |
| LegacyPropagation.MaterialisedPools | PDFtimate/randify.py:43-54 | after sampling every referenced pool has exactly `max(n, 0)` samples |
| LegacyPropagation.IndexAligned | PDFtimate/randify.py:49-68 | for a non-tuple result that fills every column, `foo` returned at every index and output sample t is its result on the inputs' samples at index t, for every t including 0 |
| LegacyPropagation.Propagate | PDFtimate/randify.py:29-74 | disagreeing pools raise AssertionError; otherwise inputs end in sample mode with the resolved number of samples, n <= 0 raises UnboundLocalError without calling `foo`; for n > 0 an exception of `foo` at index 0 passes through after one call, with the inputs already in sample mode, and later the call fails only when `foo` raises or its result does not fit the arity of index 0, then with the first failing index's error after 1 + t calls; on success `foo` runs n times and column j holds entry j of the result at each index 0 .. n-1 |
| LegacyPropagation.Randify | PDFtimate/randify.py:16-74 | without a random argument the call is `foo(*args, **kwargs)`, once, with what `foo` raises passed through; with one, the whole contract of `Propagate` holds for the arguments in call order |
| Density.MinLength | randify/utils.py:12-16 | the truncation length is at most every pool's length and equals one of them |
| Density.Join | randify/utils.py:18 | `np.concatenate((a, b), axis=1)`: the row count is kept, the widths add, and row k is a's row k followed by b's row k |
| Density.JoinAll | randify/utils.py:14-18 | column-wise concatenation keeps the row count, adds the widths, and row k is the concatenation of the blocks' rows k in order |
| Density.BlocksMatchReference | randify/utils.py:15-18 | the per-variable blocks concatenate to the reference row (each variable's k-th sample flattened, in argument order) and the reference width (sum of the samples' element counts) |
| Density.Stack | randify/utils.py:14-18 | the stacked matrix is well formed with m rows, each the reference row |
| Density.ExtractSamples | randify/utils.py:5-20 | AttributeError when a variable has no pool; otherwise succeeds iff there is a variable, the shortest pool is non-empty and no pool is ragged (else ValueError); then it has as many rows as the shortest pool, row k is every variable's k-th sample flattened and concatenated, the width is the sum of element counts, and the shapes are the representatives' shapes in order |
| Density.Chunks | randify/utils.py:43 | reshaping into b rows gives b rows of width w |
| Density.ChunksFlatten | randify/utils.py:43 | the rows flatten back to the original data |
| Density.Batch | randify/utils.py:34-55 | a query argument fits iff its shape is the recorded one (one row, checked first) or the recorded one behind a non-empty leading axis (that many rows); otherwise ValueError; its rows have the recorded element count and flatten back to its data |
| Density.ExtractGiven | randify/utils.py:23-57 | succeeds iff the argument count matches and every argument fits with the same row count (else ValueError); no argument gives no matrix; row k is the arguments' rows k concatenated in order |
| Density.ExamplesQuery | randify/utils.py:33-40 | the representatives, as query, give exactly one row: their elements concatenated |
| Density.Fit | randify/utils.py:79-80 | fitting succeeds exactly when the sample matrix can be built and has at least one column, and records it with the shapes; samples of size 0 leave no column and the estimator's input validation raises ValueError |
| Density.Evaluate | randify/utils.py:82-88 | succeeds iff the query matrix exists and is as wide as the fitted one (else ValueError); a bare number iff there is exactly one row, otherwise one score per row, aligned |
| Density.QueryAtExamples | randify/utils.py:79-88 | round trip: querying a fitted density at the representatives gives the single score of the point made of their elements |
| Density.StackedQueries | randify/utils.py:23-88 | stacking b points per variable along a leading axis gives b rows: a bare number for b = 1, b numbers otherwise |

## Left out

- Timing: `perf_counter` and `int(20 * duration / duration_foo)` are a supplied count. A zero measured duration would divide by zero in Python, and that is not modelled.
- Verbose printing: it is observational only.
- Random generation itself: numpy generators are oracles indexed by the bound arguments and the invocation count. Statistical independence of the draws is not modelled.
- `isinstance(y, tuple)`, `callable`, `getattr`, `type(...).__name__` and numeric arithmetic on samples: these are supplied functions. The type test in bulk sampling is a supplied `isinstance(x, type(y))`, so whether an `np.float64` bulk result counts as a `float` is decided by that function.
- Engine.Pick: a later result that is not a tuple but can be indexed (a list, say) is treated as TypeError, although Python would index it.
- Exceptions of a single generator call: `draw` always returns a value. In Python a generator that rejects its bound arguments (`RandomVariable(np.random.normal, "a")`) raises out of `__init__` or out of the single-call loop of `sample`. The failed bulk attempt is modelled, because `sample` catches it.
- Variables.FromGenerator: always returns a variable, because the single draw for the representative cannot raise (previous line).
- Callables among a generator's bound arguments: the sampling callable sees them through their name only, because an oracle cannot take another oracle as input.
- Float rounding: the moments are computed over exact reals. For `[0.1] * 3` Python's mean is 0.10000000000000002 and the variance about 2.9e-34 rather than 0, so a constant float pool can give a finite skewness or kurtosis instead of ZeroDivisionError.
- Moments.VarianceZeroIffConstant: holds over exact reals only; for floats, a constant pool can have a tiny non-zero variance (float rounding, above).
- Moments.KurtosisDefinedIff: holds over exact reals only; for floats, a constant pool of four or more samples can return a value instead of raising (float rounding, above).
- RandomVariables.Variance: its zero-iff-constant clause holds over exact reals only (float rounding, above).
- RandomVariables.Kurtosis: its definedness iff holds over exact reals only (float rounding, above).
- Moments.SkewnessDefinedIff: the iff holds only for an exact `root` and over exact reals. Float `** 1.5` and float rounding (above) are not modelled.
- RandomVariables.Skewness: as for Moments.SkewnessDefinedIff, the iff is stated only under the exact-root assumption and over exact reals.
- Numpy scalar division: every moment treats a zero denominator as ZeroDivisionError, as Python floats do. A pool from a bulk `sample` holds `np.float64` values, whose division by zero gives `inf` or `nan` (with a warning) instead of raising; that outcome is not modelled.
- Vector-valued moments (numpy arrays as samples): the moments are stated for real-valued pools only.
- Kernel-density fitting, `score_samples` and `exp`: the estimator is a supplied function returning one value per row. The fixed bandwidth is not modelled.
- Numpy reshaping and element types: samples are shapes plus row-major real data. Non-numeric sample arrays are not modelled.
- Density.Evaluate: a width mismatch between query and fitted matrix is reported as ValueError, which is the estimator's behaviour rather than code of this library.
- Plotting (`plotPDF.py` in both packages, `randify/plot.py`): graphical output only.
- `randify/__init__.py`: re-exports only.
- The test module: it is not part of the library's behaviour.

=== FILE: density.dfy ===
/**
 * The shape bookkeeping in front of the kernel-density estimate (`pdf`): the joint
 * sample matrix built from several random variables, the query matrix built from the
 * values a density is asked for, and the scalar-or-array answer.
 *
 * Samples and query values are n-dimensional arrays: a shape and the row-major
 * (flattened) data. Matrices are sequences of rows of one width.
 */
module Density {
  import opened Outcomes
  import opened Variables

  /** An n-dimensional array: its shape and its elements in row-major order. */
  datatype NdArray = NdArray(shape: seq<nat>, data: seq<real>)

  /** Number of elements of an array of `shape`; a scalar (empty shape) has one. */
  function Product(shape: seq<nat>): nat {
    if |shape| == 0 then 1 else shape[0] * Product(shape[1..])
  }

  /** Arrays whose data fills their shape. */
  type Array = a: NdArray | |a.data| == Product(a.shape) witness NdArray([], [0.0])

  /** A two-dimensional array: `width` columns and one sequence per row. */
  datatype Matrix = Matrix(width: nat, rows: seq<seq<real>>)

  predicate WellFormed(x: Matrix) {
    forall k :: 0 <= k < |x.rows| ==> |x.rows[k]| == x.width
  }

  /** `np.concatenate((a, b), axis=1)` on matrices with the same number of rows. */
  function Join(a: Matrix, b: Matrix): (r: Matrix)
    requires |a.rows| == |b.rows|
    ensures |r.rows| == |a.rows| && r.width == a.width + b.width
    ensures forall k :: 0 <= k < |a.rows| ==> r.rows[k] == a.rows[k] + b.rows[k]
  {
    Matrix(a.width + b.width, seq(|a.rows|, k requires 0 <= k < |a.rows| => a.rows[k] + b.rows[k]))
  }

  /** Row `k` of each block, concatenated left to right. */
  function RowAcross(blocks: seq<Matrix>, k: nat): seq<real>
    requires forall v :: 0 <= v < |blocks| ==> k < |blocks[v].rows|
  {
    if |blocks| == 0 then [] else blocks[0].rows[k] + RowAcross(blocks[1..], k)
  }

  /** The total width of a list of blocks. */
  function SumWidths(blocks: seq<Matrix>): nat {
    if |blocks| == 0 then 0 else blocks[0].width + SumWidths(blocks[1..])
  }

  /** Appending a block appends its row to the concatenated row. */
  lemma {:induction false} RowAcrossSnoc(blocks: seq<Matrix>, b: Matrix, k: nat)
    requires forall v :: 0 <= v < |blocks| ==> k < |blocks[v].rows|
    requires k < |b.rows|
    ensures RowAcross(blocks + [b], k) == RowAcross(blocks, k) + b.rows[k]
    decreases |blocks|
  {
    if |blocks| == 0 {
      assert blocks + [b] == [b];
    } else {
      assert (blocks + [b])[1..] == blocks[1..] + [b];
      RowAcrossSnoc(blocks[1..], b, k);
    }
  }

  /** Appending a block adds its width. */
  lemma {:induction false} SumWidthsSnoc(blocks: seq<Matrix>, b: Matrix)
    ensures SumWidths(blocks + [b]) == SumWidths(blocks) + b.width
    decreases |blocks|
  {
    if |blocks| == 0 {
      assert blocks + [b] == [b];
    } else {
      assert (blocks + [b])[1..] == blocks[1..] + [b];
      SumWidthsSnoc(blocks[1..], b);
    }
  }

  /**
   * The column-wise concatenation loop: `base` joined with every block in turn.
   * Row `k` of the result is row `k` of `base` followed by row `k` of each block.
   */
  function JoinAll(base: Matrix, blocks: seq<Matrix>): (r: Matrix)
    requires forall v :: 0 <= v < |blocks| ==> |blocks[v].rows| == |base.rows|
    decreases |blocks|
    ensures |r.rows| == |base.rows|
    ensures r.width == base.width + SumWidths(blocks)
    ensures forall k :: 0 <= k < |base.rows| ==> r.rows[k] == base.rows[k] + RowAcross(blocks, k)
    ensures WellFormed(base) && (forall v :: 0 <= v < |blocks| ==> WellFormed(blocks[v])) ==> WellFormed(r)
  {
    if |blocks| == 0 then base
    else
      var init := blocks[..|blocks| - 1];
      var last := blocks[|blocks| - 1];
      assert init + [last] == blocks;
      SumWidthsSnoc(init, last);
      var acc := JoinAll(base, init);
      var r := Join(acc, last);
      assert forall k :: 0 <= k < |base.rows| ==> r.rows[k] == base.rows[k] + RowAcross(blocks, k) by {
        forall k | 0 <= k < |base.rows|
          ensures r.rows[k] == base.rows[k] + RowAcross(blocks, k)
        {
          RowAcrossSnoc(init, last, k);
        }
      }
      assert WellFormed(base) && (forall v :: 0 <= v < |blocks| ==> WellFormed(blocks[v])) ==> WellFormed(r) by {
        if WellFormed(base) && forall v :: 0 <= v < |blocks| ==> WellFormed(blocks[v]) {
          assert forall v :: 0 <= v < |init| ==> init[v] == blocks[v];
          assert WellFormed(acc) && WellFormed(last);
        }
      }
      r
  }

  // ---------------------------------------------------------------------------
  // The joint sample matrix
  // ---------------------------------------------------------------------------

  /** Every variable has a pool (`ranvar.samples` exists). */
  predicate AllSampled(rvs: seq<RandomVariable<Array>>) {
    forall v :: 0 <= v < |rvs| ==> rvs[v].Samples().Some?
  }

  /** `min(N_samples_per_ranvar)`: the length of the shortest pool. */
  function MinLength(rvs: seq<RandomVariable<Array>>): (m: nat)
    requires |rvs| > 0 && AllSampled(rvs)
    ensures forall v :: 0 <= v < |rvs| ==> m <= |rvs[v].Samples().value|
    ensures exists v :: 0 <= v < |rvs| && m == |rvs[v].Samples().value|
  {
    var here := |rvs[0].Samples().value|;
    if |rvs| == 1 then here
    else
      var rest := MinLength(rvs[1..]);
      assert forall v :: 1 <= v < |rvs| ==> rvs[v] == rvs[1..][v - 1];
      if here <= rest then here else rest
  }

  /** Each of the first `m` samples of every pool, flattened, has the size of the pool's first sample. */
  predicate Uniform(rvs: seq<RandomVariable<Array>>, m: nat)
    requires AllSampled(rvs) && forall v :: 0 <= v < |rvs| ==> m <= |rvs[v].Samples().value|
  {
    forall v, k :: 0 <= v < |rvs| && 0 <= k < m ==>
      |rvs[v].Samples().value[k].data| == |rvs[v].Samples().value[0].data|
  }

  /** The flattened first `m` samples of each variable, one block per variable. */
  function Blocks(rvs: seq<RandomVariable<Array>>, m: nat): (r: seq<Matrix>)
    requires m > 0 && AllSampled(rvs) && forall v :: 0 <= v < |rvs| ==> m <= |rvs[v].Samples().value|
    ensures |r| == |rvs| && forall v :: 0 <= v < |rvs| ==> |r[v].rows| == m
  {
    seq(|rvs|, v requires 0 <= v < |rvs| =>
      var pool := rvs[v].Samples().value;
      Matrix(Product(pool[0].shape), seq(m, k requires 0 <= k < m => pool[k].data)))
  }

  /** Reference row: the `k`-th samples of all variables, flattened and concatenated in argument order. */
  function SampleRow(rvs: seq<RandomVariable<Array>>, k: nat): seq<real>
    requires AllSampled(rvs) && forall v :: 0 <= v < |rvs| ==> k < |rvs[v].Samples().value|
  {
    if |rvs| == 0 then [] else rvs[0].Samples().value[k].data + SampleRow(rvs[1..], k)
  }

  /** Reference width: the element counts of the variables' (first) samples, added up. */
  function SampleWidth(rvs: seq<RandomVariable<Array>>): nat
    requires forall v :: 0 <= v < |rvs| ==> rvs[v].Samples().Some? && |rvs[v].Samples().value| > 0
  {
    if |rvs| == 0 then 0 else Product(rvs[0].Samples().value[0].shape) + SampleWidth(rvs[1..])
  }

  /** The blocks concatenate to the reference row and width. */
  lemma {:induction false} BlocksMatchReference(rvs: seq<RandomVariable<Array>>, m: nat, k: nat)
    requires m > 0 && AllSampled(rvs) && forall v :: 0 <= v < |rvs| ==> m <= |rvs[v].Samples().value|
    requires k < m
    ensures RowAcross(Blocks(rvs, m), k) == SampleRow(rvs, k)
    ensures SumWidths(Blocks(rvs, m)) == SampleWidth(rvs)
    decreases |rvs|
  {
    if |rvs| > 0 {
      assert Blocks(rvs, m)[1..] == Blocks(rvs[1..], m);
      BlocksMatchReference(rvs[1..], m, k);
    }
  }

  /**
   * The concatenation loop over the variables, starting from an `m`-by-0 matrix of
   * zeros: row `k` is the reference row `k`.
   */
  function Stack(rvs: seq<RandomVariable<Array>>, m: nat): (x: Matrix)
    requires m > 0 && AllSampled(rvs) && forall v :: 0 <= v < |rvs| ==> m <= |rvs[v].Samples().value|
    requires Uniform(rvs, m)
    ensures WellFormed(x) && |x.rows| == m && x.width == SampleWidth(rvs)
    ensures forall k :: 0 <= k < m ==> x.rows[k] == SampleRow(rvs, k)
  {
    var blocks := Blocks(rvs, m);
    var x := JoinAll(Matrix(0, seq(m, _ => [])), blocks);
    assert forall v :: 0 <= v < |blocks| ==> WellFormed(blocks[v]);
    assert forall k :: 0 <= k < m ==> x.rows[k] == SampleRow(rvs, k) by {
      forall k | 0 <= k < m
        ensures x.rows[k] == SampleRow(rvs, k)
      {
        BlocksMatchReference(rvs, m, k);
      }
    }
    BlocksMatchReference(rvs, m, 0);
    x
  }

  /** `[np.shape(ranvar.example_sample) for ranvar in args]`. */
  function ExampleShapes(rvs: seq<RandomVariable<Array>>): (r: seq<seq<nat>>)
    ensures |r| == |rvs| && forall v :: 0 <= v < |rvs| ==> r[v] == rvs[v].example.shape
  {
    seq(|rvs|, v requires 0 <= v < |rvs| => rvs[v].example.shape)
  }

  /** The variables' representatives, in argument order. */
  function Examples(rvs: seq<RandomVariable<Array>>): (r: seq<Array>)
    ensures |r| == |rvs| && forall v :: 0 <= v < |rvs| ==> r[v] == rvs[v].example
  {
    seq(|rvs|, v requires 0 <= v < |rvs| => rvs[v].example)
  }

  /**
   * `_extract_samples_from_ranvar(*args)`: the joint sample matrix, truncated to the
   * shortest pool, and the shapes of the variables' representatives. A variable without
   * a pool has no `samples` attribute; no variable (`min` of nothing), an empty pool or a
   * ragged pool cannot be stacked into a matrix.
   */
  function ExtractSamples(rvs: seq<RandomVariable<Array>>): (r: Result<(Matrix, seq<seq<nat>>)>)
    ensures !AllSampled(rvs) ==> r == Err(AttributeError)
    ensures AllSampled(rvs) ==>
      (r.Ok? <==> |rvs| > 0 && MinLength(rvs) > 0 && Uniform(rvs, MinLength(rvs)))
    ensures AllSampled(rvs) && r.Err? ==> r.error == ValueError
    ensures r.Ok? ==>
      var (x, shapes) := r.value;
      WellFormed(x) &&
      // as many rows as the shortest pool, each the concatenation of the variables' samples
      |x.rows| == MinLength(rvs) &&
      (forall k :: 0 <= k < |x.rows| ==> x.rows[k] == SampleRow(rvs, k)) &&
      x.width == SampleWidth(rvs) &&
      // one recorded shape per variable, in argument order
      |shapes| == |rvs| && forall v :: 0 <= v < |rvs| ==> shapes[v] == rvs[v].example.shape
  {
    if exists v :: 0 <= v < |rvs| && rvs[v].Samples().None? then Err(AttributeError)
    else if |rvs| == 0 then Err(ValueError)
    else
      var m := MinLength(rvs);
      if m == 0 || !Uniform(rvs, m) then Err(ValueError)
      else
        var x := Stack(rvs, m);
        Ok((x, ExampleShapes(rvs)))
  }

  // ---------------------------------------------------------------------------
  // The query matrix
  // ---------------------------------------------------------------------------

  /** `shape[1:]`, which is empty for a scalar. */
  function Tail(shape: seq<nat>): seq<nat> {
    if |shape| == 0 then [] else shape[1..]
  }

  /** Concatenation of rows, as row-major flattening reads them. */
  function Concat(rows: seq<seq<real>>): seq<real> {
    if |rows| == 0 then [] else rows[0] + Concat(rows[1..])
  }

  /** `np.reshape(data, (b, -1))` for `b > 0`: `b` consecutive rows of width `w`. */
  function Chunks(data: seq<real>, w: nat, b: nat): (r: seq<seq<real>>)
    requires |data| == b * w
    decreases b
    ensures |r| == b && forall k :: 0 <= k < b ==> |r[k]| == w
  {
    if b == 0 then []
    else
      assert |data| == (b - 1) * w + w;
      [data[..w]] + Chunks(data[w..], w, b - 1)
  }

  /** Reshaping into rows keeps the row-major order: the rows flatten back to the data. */
  lemma {:induction false} ChunksFlatten(data: seq<real>, w: nat, b: nat)
    requires |data| == b * w
    ensures Concat(Chunks(data, w, b)) == data
    decreases b
  {
    if b > 0 {
      assert |data| == (b - 1) * w + w;
      var r := Chunks(data, w, b);
      assert r[1..] == Chunks(data[w..], w, b - 1);
      ChunksFlatten(data[w..], w, b - 1);
      assert data == data[..w] + data[w..];
    }
  }

  /**
   * What one query argument contributes for a variable recorded with shape `recorded`:
   * one row when its shape is exactly `recorded` (checked first), `shape[0]` rows when
   * its shape is `recorded` behind a leading batch axis, and a shape error otherwise.
   * A batch axis of length 0 cannot be reshaped to `(0, -1)`.
   */
  function Batch(q: Array, recorded: seq<nat>): (r: Result<Matrix>)
    ensures r.Ok? <==> q.shape == recorded || (|q.shape| > 0 && q.shape[1..] == recorded && q.shape[0] > 0)
    ensures r.Err? ==> r.error == ValueError
    ensures r.Ok? ==> WellFormed(r.value) && r.value.width == Product(recorded)
    ensures r.Ok? ==> |r.value.rows| == (if q.shape == recorded then 1 else q.shape[0])
    // the rows are the query's elements in order
    ensures r.Ok? ==> Concat(r.value.rows) == q.data
  {
    if q.shape == recorded then
      assert Concat([q.data]) == q.data + Concat([]);
      Ok(Matrix(|q.data|, [q.data]))
    else if Tail(q.shape) == recorded && q.shape[0] > 0 then
      var w := Product(recorded);
      ChunksFlatten(q.data, w, q.shape[0]);
      Ok(Matrix(w, Chunks(q.data, w, q.shape[0])))
    else Err(ValueError)
  }

  /** Every query argument fits its recorded shape, and all contribute the same number of rows. */
  predicate Aligned(queries: seq<Array>, shapes: seq<seq<nat>>)
    requires |queries| == |shapes|
  {
    (forall v :: 0 <= v < |queries| ==> Batch(queries[v], shapes[v]).Ok?) &&
    forall v :: 0 <= v < |queries| ==> |Batch(queries[v], shapes[v]).value.rows| == |Batch(queries[0], shapes[0]).value.rows|
  }

  /** The blocks of aligned query arguments. */
  function QueryBlocks(queries: seq<Array>, shapes: seq<seq<nat>>): (r: seq<Matrix>)
    requires |queries| == |shapes| && Aligned(queries, shapes)
    ensures |r| == |queries| && forall v :: 0 <= v < |r| ==> r[v] == Batch(queries[v], shapes[v]).value
  {
    seq(|queries|, v requires 0 <= v < |queries| => Batch(queries[v], shapes[v]).value)
  }

  /**
   * `_extract_given_samples(*args, sample_inital_shapes)`: the query matrix, or none for
   * no query argument. The argument count must match the recorded shapes, each argument
   * must fit its shape, and all must contribute the same number of rows.
   */
  function ExtractGiven(queries: seq<Array>, shapes: seq<seq<nat>>): (r: Result<Option<Matrix>>)
    ensures r.Err? ==> r.error == ValueError
    ensures r.Ok? <==> |queries| == |shapes| && Aligned(queries, shapes)
    ensures r.Ok? ==> (r.value.None? <==> |queries| == 0)
    ensures r.Ok? && r.value.Some? ==>
      var x := r.value.value;
      var blocks := QueryBlocks(queries, shapes);
      WellFormed(x) && |x.rows| == |blocks[0].rows| && x.width == SumWidths(blocks) &&
      forall k :: 0 <= k < |x.rows| ==> x.rows[k] == RowAcross(blocks, k)
  {
    if |queries| != |shapes| then Err(ValueError)
    else if exists v :: 0 <= v < |queries| && Batch(queries[v], shapes[v]).Err? then Err(ValueError)
    else if !Aligned(queries, shapes) then Err(ValueError)
    else if |queries| == 0 then Ok(None)
    else
      var blocks := QueryBlocks(queries, shapes);
      var x := JoinAll(blocks[0], blocks[1..]);
      assert forall v :: 0 <= v < |blocks| ==> WellFormed(blocks[v]);
      Ok(Some(x))
  }

  // ---------------------------------------------------------------------------
  // The density function
  // ---------------------------------------------------------------------------

  /** `pdf(*args)` after fitting: the joint sample matrix and the recorded shapes. */
  datatype Fitted = Fitted(samples: Matrix, shapes: seq<seq<nat>>)

  /** A density at one point, or at each of several stacked points. */
  datatype PdfValue = Scalar(value: real) | Values(values: seq<real>)

  /**
   * `pdf(*args)`: fit on the joint sample matrix (the estimator itself is supplied to
   * `Evaluate`). The estimator's input validation rejects a matrix with no columns,
   * which is what samples of size 0 give.
   */
  function Fit(rvs: seq<RandomVariable<Array>>): (r: Result<Fitted>)
    ensures r.Ok? <==> ExtractSamples(rvs).Ok? && ExtractSamples(rvs).value.0.width > 0
    ensures r.Err? ==> r.error == (if ExtractSamples(rvs).Err? then ExtractSamples(rvs).error else ValueError)
    ensures r.Ok? ==> r.value.samples == ExtractSamples(rvs).value.0 && r.value.shapes == ExtractSamples(rvs).value.1
  {
    var (x, shapes) :- ExtractSamples(rvs);
    if x.width == 0 then Err(ValueError) else Ok(Fitted(x, shapes))
  }

  /**
   * `_pdf(*args)`: the density at each query row, as `score(samples, row)`; a bare number
   * when there is exactly one row. The estimator rejects rows whose width differs from
   * the fitted one.
   */
  function Evaluate(fit: Fitted, score: (Matrix, seq<real>) -> real, queries: seq<Array>): (r: Result<PdfValue>)
    ensures r.Err? ==> r.error == ValueError
    ensures r.Ok? <==>
      ExtractGiven(queries, fit.shapes).Ok? && |queries| > 0 &&
      ExtractGiven(queries, fit.shapes).value.value.width == fit.samples.width
    ensures r.Ok? ==>
      var rows := ExtractGiven(queries, fit.shapes).value.value.rows;
      var p := r.value;
      (p.Scalar? <==> |rows| == 1) &&
      (p.Scalar? ==> p.value == score(fit.samples, rows[0])) &&
      (p.Values? ==> |p.values| == |rows| && forall k :: 0 <= k < |rows| ==> p.values[k] == score(fit.samples, rows[k]))
  {
    var given :- ExtractGiven(queries, fit.shapes);
    match given
    case None => Err(ValueError)
    case Some(x) =>
      if x.width != fit.samples.width then Err(ValueError)
      else
        var values := seq(|x.rows|, k requires 0 <= k < |x.rows| => score(fit.samples, x.rows[k]));
        if |values| == 1 then Ok(Scalar(values[0])) else Ok(Values(values))
  }

  /** Reference row of a query at the representatives: their elements concatenated in argument order. */
  function ExampleRow(rvs: seq<RandomVariable<Array>>): seq<real> {
    if |rvs| == 0 then [] else rvs[0].example.data + ExampleRow(rvs[1..])
  }

  /** The elements a point of the recorded shapes has, added up. */
  function ShapesWidth(shapes: seq<seq<nat>>): nat {
    if |shapes| == 0 then 0 else Product(shapes[0]) + ShapesWidth(shapes[1..])
  }

  /** Every block of aligned query arguments is as wide as its recorded shape. */
  lemma {:induction false} QueryWidth(queries: seq<Array>, shapes: seq<seq<nat>>)
    requires |queries| == |shapes| && Aligned(queries, shapes)
    ensures SumWidths(QueryBlocks(queries, shapes)) == ShapesWidth(shapes)
    decreases |queries|
  {
    if |queries| > 0 {
      var tail := queries[1..];
      assert Aligned(tail, shapes[1..]) by {
        forall v | 0 <= v < |tail|
          ensures Batch(tail[v], shapes[1..][v]).Ok? &&
                  |Batch(tail[v], shapes[1..][v]).value.rows| == |Batch(tail[0], shapes[1..][0]).value.rows|
        {
          assert tail[v] == queries[v + 1] && tail[0] == queries[1];
        }
      }
      assert QueryBlocks(queries, shapes)[1..] == QueryBlocks(tail, shapes[1..]);
      QueryWidth(tail, shapes[1..]);
    }
  }

  /** The recorded shapes are the representatives' shapes, so their widths agree. */
  lemma {:induction false} ExampleWidth(rvs: seq<RandomVariable<Array>>)
    requires forall v :: 0 <= v < |rvs| ==> rvs[v].Samples().Some? && |rvs[v].Samples().value| > 0
    requires forall v :: 0 <= v < |rvs| ==> rvs[v].Samples().value[0].shape == rvs[v].example.shape
    ensures SampleWidth(rvs) == ShapesWidth(ExampleShapes(rvs))
    decreases |rvs|
  {
    if |rvs| > 0 {
      var shapes := ExampleShapes(rvs);
      assert shapes[1..] == ExampleShapes(rvs[1..]);
      ExampleWidth(rvs[1..]);
    }
  }

  /** Querying at the representatives, which have the recorded shapes, builds the one row of their elements. */
  lemma {:induction false} ExamplesRow(rvs: seq<RandomVariable<Array>>)
    ensures
      var queries := Examples(rvs);
      var shapes := ExampleShapes(rvs);
      Aligned(queries, shapes) &&
      (|rvs| > 0 ==> |QueryBlocks(queries, shapes)[0].rows| == 1 && RowAcross(QueryBlocks(queries, shapes), 0) == ExampleRow(rvs))
    decreases |rvs|
  {
    var queries := Examples(rvs);
    var shapes := ExampleShapes(rvs);
    assert Aligned(queries, shapes);
    if |rvs| > 0 {
      var tail := rvs[1..];
      assert queries[1..] == Examples(tail);
      assert shapes[1..] == ExampleShapes(tail);
      ExamplesRow(tail);
      assert QueryBlocks(queries, shapes)[1..] == QueryBlocks(queries[1..], shapes[1..]);
    }
  }

  /** The query matrix at the representatives: one row of their elements, as wide as the recorded shapes. */
  lemma ExamplesQuery(rvs: seq<RandomVariable<Array>>)
    requires |rvs| > 0
    ensures
      var queries := Examples(rvs);
      var shapes := ExampleShapes(rvs);
      var given := ExtractGiven(queries, shapes);
      given.Ok? && given.value.Some? && |given.value.value.rows| == 1 &&
      given.value.value.rows[0] == ExampleRow(rvs) && given.value.value.width == ShapesWidth(shapes)
  {
    var queries := Examples(rvs);
    var shapes := ExampleShapes(rvs);
    ExamplesRow(rvs);
    QueryWidth(queries, shapes);
  }

  /**
   * Round trip: once fitted, querying the density at the variables' representatives
   * gives one number, the score of the point made of their elements, provided each
   * pool's first sample has its representative's shape.
   */
  lemma QueryAtExamples(rvs: seq<RandomVariable<Array>>, score: (Matrix, seq<real>) -> real)
    requires Fit(rvs).Ok?
    requires forall v :: 0 <= v < |rvs| ==> rvs[v].Samples().value[0].shape == rvs[v].example.shape
    ensures
      var queries := Examples(rvs);
      Evaluate(Fit(rvs).value, score, queries) == Ok(Scalar(score(Fit(rvs).value.samples, ExampleRow(rvs))))
  {
    var queries := Examples(rvs);
    FitRecords(rvs);
    ExamplesQuery(rvs);
    ExampleWidth(rvs);
    SingleRow(Fit(rvs).value, score, queries);
  }

  /** What a successful fit records: the representatives' shapes and the samples' total element count. */
  lemma FitRecords(rvs: seq<RandomVariable<Array>>)
    requires Fit(rvs).Ok?
    ensures |rvs| > 0 && AllSampled(rvs) && forall v :: 0 <= v < |rvs| ==> |rvs[v].Samples().value| > 0
    ensures Fit(rvs).value.shapes == ExampleShapes(rvs)
    ensures Fit(rvs).value.samples.width == SampleWidth(rvs) > 0
  {
    assert Fit(rvs).value.samples == ExtractSamples(rvs).value.0;
  }

  /** A query matrix of one row, as wide as the fitted one, gives that row's score as a bare number. */
  lemma SingleRow(fit: Fitted, score: (Matrix, seq<real>) -> real, queries: seq<Array>)
    requires ExtractGiven(queries, fit.shapes).Ok? && ExtractGiven(queries, fit.shapes).value.Some?
    requires |ExtractGiven(queries, fit.shapes).value.value.rows| == 1
    requires ExtractGiven(queries, fit.shapes).value.value.width == fit.samples.width
    ensures Evaluate(fit, score, queries) == Ok(Scalar(score(fit.samples, ExtractGiven(queries, fit.shapes).value.value.rows[0])))
  {}

  /**
   * Stacking `b` points of every variable along a new leading axis gives `b` query rows:
   * a bare number for `b == 1`, and `b` numbers otherwise.
   */
  lemma StackedQueries(fit: Fitted, score: (Matrix, seq<real>) -> real, queries: seq<Array>, b: nat)
    requires |fit.shapes| > 0 && |queries| == |fit.shapes| && b > 0
    requires forall v :: 0 <= v < |queries| ==> queries[v].shape == [b] + fit.shapes[v]
    requires fit.samples.width == ShapesWidth(fit.shapes)
    ensures ExtractGiven(queries, fit.shapes).Ok?
    ensures |ExtractGiven(queries, fit.shapes).value.value.rows| == b
    ensures var r := Evaluate(fit, score, queries);
      r.Ok? && (r.value.Scalar? <==> b == 1) && (r.value.Values? ==> |r.value.values| == b)
  {
    forall v | 0 <= v < |queries|
      ensures Batch(queries[v], fit.shapes[v]).Ok? && |Batch(queries[v], fit.shapes[v]).value.rows| == b
    {
      assert queries[v].shape != fit.shapes[v] by {
        assert |queries[v].shape| == |fit.shapes[v]| + 1;
      }
      assert queries[v].shape[1..] == fit.shapes[v];
    }
    QueryWidth(queries, fit.shapes);
  }
}

=== FILE: engine.dfy ===
/**
 * The parts of the `randify` wrapper that both generations share: argument
 * classification, sample-count agreement, the per-index argument lists and the
 * reassembly of per-index results into output variables.
 *
 * Random variables are Python objects that the wrapper mutates, and the same object
 * may be passed twice. The model keeps every random variable in a store and passes
 * references into it, so the wrapper's effect on its inputs is the updated store.
 */
module Engine {
  import opened Outcomes
  import opened Host
  import opened Variables

  /** One argument of the wrapped call: a plain value or a reference to a random variable. */
  datatype Arg<V> = Plain(value: V) | Ref(id: nat)

  /**
   * The wrapped function `foo`, called with positional and keyword values. It may raise,
   * and nothing in the wrapper catches what it raises.
   */
  datatype Callee<!V> = Callee(call: (seq<V>, seq<(string, V)>) -> Result<V>)

  /** What the wrapped call returns: `foo`'s own result, one variable, or a tuple of them. */
  datatype Outcome<!V> =
    | Direct(value: V)
    | Single(rv: RandomVariable<V>)
    | Multi(rvs: seq<RandomVariable<V>>)

  /** The result of the wrapped call, the random variables after it, and how often `foo` ran. */
  datatype Invocation<!V> = Invocation(result: Result<Outcome<V>>, store: seq<RandomVariable<V>>, fooCalls: nat)

  /** `list(args) + list(kwargs.values())`: keyword values follow the positionals. */
  function Initial<V>(args: seq<Arg<V>>, kwargs: seq<(string, Arg<V>)>): (r: seq<Arg<V>>)
    ensures |r| == |args| + |kwargs|
    ensures forall i :: 0 <= i < |args| ==> r[i] == args[i]
    ensures forall i :: 0 <= i < |kwargs| ==> r[|args| + i] == kwargs[i].1
  {
    args + seq(|kwargs|, i requires 0 <= i < |kwargs| => kwargs[i].1)
  }

  /** Every reference points into the store. */
  predicate RefsValid<V>(initial: seq<Arg<V>>, store: seq<RandomVariable<V>>) {
    forall i :: 0 <= i < |initial| && initial[i].Ref? ==> initial[i].id < |store|
  }

  /** `[i for i, a in enumerate(initial) if isinstance(a, RandomVariable)]`. */
  function RandomIndices<V>(initial: seq<Arg<V>>): (r: seq<nat>)
    ensures forall k :: 0 <= k < |r| ==> r[k] < |initial| && initial[r[k]].Ref?
    ensures forall i :: 0 <= i < |initial| && initial[i].Ref? ==> i in r
    ensures forall a, b :: 0 <= a < b < |r| ==> r[a] < r[b]
  {
    if |initial| == 0 then []
    else
      var front := RandomIndices(initial[..|initial| - 1]);
      assert forall i :: 0 <= i < |initial| - 1 ==> initial[..|initial| - 1][i] == initial[i];
      if initial[|initial| - 1].Ref? then front + [|initial| - 1] else front
  }

  /** The values of arguments that are all plain. */
  function Values<V>(args: seq<Arg<V>>): (r: seq<V>)
    requires forall i :: 0 <= i < |args| ==> args[i].Plain?
    ensures |r| == |args| && forall i :: 0 <= i < |args| ==> r[i] == args[i].value
  {
    seq(|args|, i requires 0 <= i < |args| => args[i].value)
  }

  /** The keyword arguments, all plain, with their values unwrapped. */
  function KeywordValues<V>(kwargs: seq<(string, Arg<V>)>): (r: seq<(string, V)>)
    requires forall i :: 0 <= i < |kwargs| ==> kwargs[i].1.Plain?
    ensures |r| == |kwargs| && forall i :: 0 <= i < |kwargs| ==> r[i] == (kwargs[i].0, kwargs[i].1.value)
  {
    seq(|kwargs|, i requires 0 <= i < |kwargs| => (kwargs[i].0, kwargs[i].1.value))
  }

  // ---------------------------------------------------------------------------
  // Sample-count resolution
  // ---------------------------------------------------------------------------

  /** Argument `i` refers to a variable in sample mode. */
  predicate IsSampleRef<V>(store: seq<RandomVariable<V>>, initial: seq<Arg<V>>, i: int) {
    0 <= i < |initial| && initial[i].Ref? && initial[i].id < |store| && store[initial[i].id].SampleBacked?
  }

  function PoolLength<V>(store: seq<RandomVariable<V>>, initial: seq<Arg<V>>, i: int): nat
    requires IsSampleRef(store, initial, i)
  {
    |store[initial[i].id].pool|
  }

  /** Every sample-mode argument from position `k` on has a pool of length `n`. */
  predicate AgreeFrom<V>(store: seq<RandomVariable<V>>, initial: seq<Arg<V>>, k: nat, n: int) {
    forall i :: k <= i < |initial| && IsSampleRef(store, initial, i) ==> PoolLength(store, initial, i) == n
  }

  /** The sample-mode arguments from position `k` on all have pools of one length. */
  predicate ConsistentFrom<V>(store: seq<RandomVariable<V>>, initial: seq<Arg<V>>, k: nat) {
    forall i, j :: k <= i < |initial| && k <= j < |initial| && IsSampleRef(store, initial, i) && IsSampleRef(store, initial, j) ==>
      PoolLength(store, initial, i) == PoolLength(store, initial, j)
  }

  predicate NoSampleRefFrom<V>(store: seq<RandomVariable<V>>, initial: seq<Arg<V>>, k: nat) {
    forall i :: k <= i < |initial| ==> !IsSampleRef(store, initial, i)
  }

  /**
   * The loop over the argument positions from `k` on, with `n` the count found so far
   * (-1 for none yet): the first sample-mode pool fixes the count, every later one
   * must agree with it.
   */
  function CountFrom<V>(store: seq<RandomVariable<V>>, initial: seq<Arg<V>>, k: nat, n: int): (r: Result<int>)
    requires k <= |initial| && RefsValid(initial, store) && n >= -1
    decreases |initial| - k
    ensures r.Err? ==> r.error == AssertionError
    ensures n != -1 ==> (r.Ok? <==> AgreeFrom(store, initial, k, n)) && (r.Ok? ==> r.value == n)
    ensures n == -1 ==> (r.Ok? <==> ConsistentFrom(store, initial, k))
    ensures n == -1 && r.Ok? ==>
      (r.value == -1 <==> NoSampleRefFrom(store, initial, k)) && AgreeFrom(store, initial, k, r.value)
  {
    if k == |initial| then Ok(n)
    else if IsSampleRef(store, initial, k) then
      var len := PoolLength(store, initial, k);
      if n == -1 then CountFrom(store, initial, k + 1, len)
      else if n == len then CountFrom(store, initial, k + 1, n)
      else Err(AssertionError)
    else CountFrom(store, initial, k + 1, n)
  }

  /**
   * `N_samples` as found from the pools: -1 when no argument is in sample mode,
   * otherwise the common pool length; pools of different lengths fail the assertion.
   */
  function ResolveCount<V>(store: seq<RandomVariable<V>>, initial: seq<Arg<V>>): (r: Result<int>)
    requires RefsValid(initial, store)
    ensures r.Err? ==> r.error == AssertionError
    ensures r.Ok? <==> ConsistentFrom(store, initial, 0)
    ensures r.Ok? ==> (r.value == -1 <==> NoSampleRefFrom(store, initial, 0))
    ensures r.Ok? ==> r.value >= -1 && AgreeFrom(store, initial, 0, r.value)
  {
    CountFrom(store, initial, 0, -1)
  }

  // ---------------------------------------------------------------------------
  // Per-index arguments
  // ---------------------------------------------------------------------------

  /** Argument `k` names a variable. */
  predicate RefersTo<V>(initial: seq<Arg<V>>, k: nat, id: nat) {
    exists i :: k <= i < |initial| && initial[i] == Ref(id)
  }

  /** Every referenced variable is in sample mode with a pool that has index `t`. */
  predicate ReadableAt<V>(store: seq<RandomVariable<V>>, initial: seq<Arg<V>>, t: nat) {
    forall i :: 0 <= i < |initial| && initial[i].Ref? ==>
      initial[i].id < |store| && store[initial[i].id].SampleBacked? && t < |store[initial[i].id].pool|
  }

  /** The arguments of iteration `t`: plain values unchanged, each variable replaced by its `t`-th sample. */
  function ArgumentsAt<V>(store: seq<RandomVariable<V>>, initial: seq<Arg<V>>, t: nat): (r: seq<V>)
    requires ReadableAt(store, initial, t)
    ensures |r| == |initial|
    ensures forall i :: 0 <= i < |initial| && initial[i].Plain? ==> r[i] == initial[i].value
    ensures forall i :: 0 <= i < |initial| && initial[i].Ref? ==> r[i] == store[initial[i].id].pool[t]
  {
    seq(|initial|, i requires 0 <= i < |initial| =>
      match initial[i]
      case Plain(v) => v
      case Ref(id) => store[id].pool[t])
  }

  // ---------------------------------------------------------------------------
  // Reassembly
  // ---------------------------------------------------------------------------

  /** `isinstance(y, tuple)` on the first result fixes the arity of the call. */
  predicate Tupled<V>(refl: Reflection<V>, y: V) {
    refl.asTuple(y).Some?
  }

  /** `N_return`: the length of the first result's tuple, or 1. */
  function Width<V>(refl: Reflection<V>, y: V): nat {
    if Tupled(refl, y) then |refl.asTuple(y).value| else 1
  }

  /**
   * What one later result contributes to the output columns: `y[j]` for each
   * position `j` of the first result's tuple, or `y` itself when it was not a tuple.
   * Indexing a non-tuple or a too-short tuple fails.
   */
  function Pick<V>(refl: Reflection<V>, y: V, tupled: bool, width: nat): (r: Result<seq<V>>)
    ensures r.Ok? ==> |r.value| == (if tupled then width else 1)
    ensures !tupled ==> r == Ok([y])
    ensures tupled && width == 0 ==> r == Ok([])
    ensures tupled && width > 0 ==>
      (r.Ok? <==> Tupled(refl, y) && |refl.asTuple(y).value| >= width) &&
      (r.Ok? ==> forall j :: 0 <= j < width ==> r.value[j] == refl.asTuple(y).value[j])
  {
    if !tupled then Ok([y])
    else if width == 0 then Ok([])
    else match refl.asTuple(y)
      case None => Err(TypeError)
      case Some(ys) => if |ys| < width then Err(IndexError) else Ok(ys[..width])
  }

  /** The first result always fits the arity it defines. */
  lemma PickFirst<V>(refl: Reflection<V>, y: V)
    ensures Pick(refl, y, Tupled(refl, y), Width(refl, y)).Ok?
  {}

  /** The output variables, each in sample mode over its column of results. */
  function Assemble<V>(refl: Reflection<V>, columns: seq<seq<V>>, tupled: bool): (r: Outcome<V>)
    requires forall j :: 0 <= j < |columns| ==> |columns[j]| > 0
    requires !tupled ==> |columns| == 1
    ensures r.Single? <==> !tupled
    ensures Columns(r) == columns
    // each output is `RandomVariable(samples=column)`: its representative is the column's first sample
    ensures r.Single? ==>
      r.rv.SampleBacked? && r.rv.example == columns[0][0] && r.rv.typeName == refl.typeName(columns[0][0])
    ensures r.Multi? ==> forall j :: 0 <= j < |r.rvs| ==>
      r.rvs[j].SampleBacked? && r.rvs[j].example == columns[j][0] && r.rvs[j].typeName == refl.typeName(columns[j][0])
  {
    if tupled then
      Multi(seq(|columns|, j requires 0 <= j < |columns| => FromPool(refl, columns[j]).value))
    else
      Single(FromPool(refl, columns[0]).value)
  }

  /** The pools of the output variables, in output order. */
  function Columns<V>(o: Outcome<V>): seq<seq<V>> {
    match o
    case Direct(_) => []
    case Single(rv) => [if rv.SampleBacked? then rv.pool else []]
    case Multi(rvs) => seq(|rvs|, j requires 0 <= j < |rvs| => if rvs[j].SampleBacked? then rvs[j].pool else [])
  }

  // ---------------------------------------------------------------------------
  // The Monte Carlo loop
  // ---------------------------------------------------------------------------

  /** Some argument is a random variable. */
  ghost predicate HasRandom<V>(initial: seq<Arg<V>>) {
    exists i :: 0 <= i < |initial| && initial[i].Ref?
  }

  /** The result of `foo` at index `t` of the Monte Carlo loop, or what it raised. */
  function OutputAt<V>(foo: Callee<V>, store: seq<RandomVariable<V>>, initial: seq<Arg<V>>, t: nat): Result<V>
    requires ReadableAt(store, initial, t)
  {
    foo.call(ArgumentsAt(store, initial, t), [])
  }

  /**
   * What the result at index `t` contributes to the columns, given the first result `y`:
   * what `foo` raised, or its result cut to the first result's arity.
   */
  function RowAt<V>(refl: Reflection<V>, foo: Callee<V>, store: seq<RandomVariable<V>>, initial: seq<Arg<V>>, y: V, t: nat)
    : Result<seq<V>>
    requires ReadableAt(store, initial, t)
  {
    match OutputAt(foo, store, initial, t)
    case Err(e) => Err(e)
    case Ok(out) => Pick(refl, out, Tupled(refl, y), Width(refl, y))
  }

  /** Length of every output pool: `N_samples`, but never less than the warm-up result alone. */
  function OutputLength(n: int): nat {
    if n < 1 then 1 else n
  }

  /**
   * `columns` holds, per output position `j`, the warm-up result at index 0 followed by
   * the results of the loop indices `1 .. n-1`.
   */
  ghost predicate ColumnsFit<V>(refl: Reflection<V>, foo: Callee<V>, s: seq<RandomVariable<V>>, initial: seq<Arg<V>>,
                                y: V, n: int, columns: seq<seq<V>>)
    requires forall t :: 0 <= t < n ==> ReadableAt(s, initial, t)
  {
    PickFirst(refl, y);
    |columns| == Width(refl, y) &&
    forall j :: 0 <= j < |columns| ==>
      |columns[j]| == OutputLength(n) &&
      columns[j][0] == Pick(refl, y, Tupled(refl, y), Width(refl, y)).value[j] &&
      forall t :: 1 <= t < n ==>
        RowAt(refl, foo, s, initial, y, t).Ok? && j < |RowAt(refl, foo, s, initial, y, t).value| &&
        columns[j][t] == RowAt(refl, foo, s, initial, y, t).value[j]
  }

  /** Index `t` is the first loop index where `foo` raises or its result does not fit the first result's arity. */
  predicate FirstFailure<V>(refl: Reflection<V>, foo: Callee<V>, s: seq<RandomVariable<V>>, initial: seq<Arg<V>>,
                           y: V, t: nat)
    requires forall u :: 0 <= u <= t ==> ReadableAt(s, initial, u)
  {
    RowAt(refl, foo, s, initial, y, t).Err? &&
    forall u :: 1 <= u < t ==> RowAt(refl, foo, s, initial, y, u).Ok?
  }

  /**
   * The Monte Carlo loop over indices `1 .. n-1`: `foo` on the samples at each index,
   * every result cut to the arity of the result `y` that index 0 produced. Also returns
   * how many times `foo` was called.
   */
  method Collect<V>(refl: Reflection<V>, foo: Callee<V>, s: seq<RandomVariable<V>>, initial: seq<Arg<V>>, y: V, n: int)
    returns (r: Result<seq<seq<V>>>, calls: nat)
    requires forall t :: 0 <= t < n ==> ReadableAt(s, initial, t)
    ensures r.Ok? <==> forall t :: 1 <= t < n ==> RowAt(refl, foo, s, initial, y, t).Ok?
    ensures r.Ok? ==> calls == OutputLength(n) - 1 && ColumnsFit(refl, foo, s, initial, y, n, r.value)
    // a failure is raised at the first failing index, after `foo` ran for it
    ensures r.Err? ==>
      1 <= calls < n && FirstFailure(refl, foo, s, initial, y, calls) && RowAt(refl, foo, s, initial, y, calls) == Err(r.error)
  {
    var tupled := Tupled(refl, y);
    var width := Width(refl, y);
    PickFirst(refl, y);
    var first := Pick(refl, y, tupled, width).value;
    var columns := seq(width, j requires 0 <= j < width => [first[j]]);
    calls := 0;
    var i := 1;
    while i < n
      invariant 1 <= i <= OutputLength(n)
      invariant |columns| == width
      invariant forall j :: 0 <= j < width ==> |columns[j]| == i
      invariant forall j :: 0 <= j < width ==> columns[j][0] == first[j]
      invariant forall t :: 1 <= t < i ==> RowAt(refl, foo, s, initial, y, t).Ok?
      invariant forall j, t :: 0 <= j < width && 1 <= t < i ==> columns[j][t] == RowAt(refl, foo, s, initial, y, t).value[j]
      invariant calls == i - 1
    {
      var out := foo.call(ArgumentsAt(s, initial, i), []);
      calls := calls + 1;
      var row := if out.Err? then Err(out.error) else Pick(refl, out.value, tupled, width);
      if row.Err? {
        assert RowAt(refl, foo, s, initial, y, i) == row;
        return Err(row.error), calls;
      }
      columns := seq(width, j requires 0 <= j < width => columns[j] + [row.value[j]]);
      i := i + 1;
    }
    r := Ok(columns);
  }

  /**
   * What the Monte Carlo loop and the reassembly leave: after `calls` further calls of
   * `foo`, either the output variables over the collected columns or the error of the
   * first index where `foo` raises or its result does not fit the first result's arity.
   */
  ghost predicate LoopOutcome<V>(refl: Reflection<V>, foo: Callee<V>, s: seq<RandomVariable<V>>, initial: seq<Arg<V>>,
                                 y: V, n: int, result: Result<Outcome<V>>, calls: int)
    requires forall t :: 0 <= t < n ==> ReadableAt(s, initial, t)
  {
    !(result.Ok? && result.value.Direct?) &&
    (result.Ok? <==> forall t :: 1 <= t < n ==> RowAt(refl, foo, s, initial, y, t).Ok?) &&
    (result.Ok? ==>
       calls == OutputLength(n) - 1 &&
       (result.value.Single? <==> !Tupled(refl, y)) &&
       ColumnsFit(refl, foo, s, initial, y, n, Columns(result.value))) &&
    (result.Err? ==>
       1 <= calls < n && FirstFailure(refl, foo, s, initial, y, calls) &&
       result == Err(RowAt(refl, foo, s, initial, y, calls).error))
  }

  /** The Monte Carlo loop after index 0, then the output variables built from its columns. */
  method Simulate<V>(refl: Reflection<V>, foo: Callee<V>, s: seq<RandomVariable<V>>, initial: seq<Arg<V>>, y: V, n: int)
    returns (result: Result<Outcome<V>>, calls: nat)
    requires forall t :: 0 <= t < n ==> ReadableAt(s, initial, t)
    ensures LoopOutcome(refl, foo, s, initial, y, n, result, calls)
  {
    var columns;
    columns, calls := Collect(refl, foo, s, initial, y, n);
    if columns.Err? {
      return Err(columns.error), calls;
    }
    PickFirst(refl, y);
    result := Ok(Assemble(refl, columns.value, Tupled(refl, y)));
  }
}

=== FILE: host.dfy ===
/**
 * What the modelled code learns from the Python runtime: the sampling callables it
 * is handed, the shape of constructor arguments (`isinstance(_, list)`, `callable(_)`),
 * and the reflection it performs on sample values (`type(_).__name__`, `getattr`,
 * `isinstance(_, tuple)`, numeric `sum`). Each is a caller-supplied function here.
 */
module Host {
  import opened Outcomes

  /**
   * A sampling callable such as `numpy.random.normal`, together with what it returns.
   * `draw(b, k)` is the value of the k-th invocation on the bound arguments `b`
   * without a size argument; `bulk(b, k, n)` is the list returned by the k-th
   * invocation on `b` with `size=n`, or None when that call raises. Invocations are
   * counted per random variable.
   */
  datatype GenFunc<!V> = GenFunc(
    name: string,
    draw: (Binding<V>, nat) -> V,
    bulk: (Binding<V>, nat, int) -> Option<seq<V>>)

  /**
   * A bound argument as the sampling callable receives it. A callable passed as an
   * argument is seen through its name only, since a `GenFunc` cannot take itself as input.
   */
  datatype Bound<V> =
    | BoundList(items: seq<V>)
    | BoundSequence(items: seq<V>)
    | BoundCallable(name: string)
    | BoundValue(v: V)

  /** The positional and keyword arguments bound into a generator at construction. */
  datatype Binding<V> = Binding(args: seq<Bound<V>>, kwargs: seq<(string, Bound<V>)>)

  /** A positional or keyword argument handed to the RandomVariable constructor. */
  datatype PyArg<!V> =
    | List(items: seq<V>)        // a Python list
    | Sequence(items: seq<V>)    // another subscriptable sequence (tuple, numpy array)
    | Callable(func: GenFunc<V>) // a callable sampling function
    | Other(v: V)                // any other value: neither a list, a sequence nor callable

  function BoundOf<V>(a: PyArg<V>): Bound<V> {
    match a
    case List(items) => BoundList(items)
    case Sequence(items) => BoundSequence(items)
    case Callable(f) => BoundCallable(f.name)
    case Other(v) => BoundValue(v)
  }

  /** What the sampling callable receives for `func(*args, **kwargs)`. */
  function Bind<V>(args: seq<PyArg<V>>, kwargs: seq<(string, PyArg<V>)>): (b: Binding<V>)
    ensures |b.args| == |args| && |b.kwargs| == |kwargs|
    ensures forall i :: 0 <= i < |args| ==> b.args[i] == BoundOf(args[i])
    ensures forall i :: 0 <= i < |kwargs| ==> b.kwargs[i] == (kwargs[i].0, BoundOf(kwargs[i].1))
  {
    Binding(seq(|args|, i requires 0 <= i < |args| => BoundOf(args[i])),
            seq(|kwargs|, i requires 0 <= i < |kwargs| => (kwargs[i].0, BoundOf(kwargs[i].1))))
  }

  /** Runtime reflection on sample values. */
  datatype Reflection<!V> = Reflection(
    typeName: V -> string,               // type(x).__name__
    getAttr: (V, string) -> Option<V>,   // getattr(x, p), None when x has no attribute p
    asReal: V -> Option<real>,           // the number x stands for, None when x is not numeric
    asTuple: V -> Option<seq<V>>,        // the items of x when isinstance(x, tuple)
    isInstanceOf: (V, V) -> bool         // isinstance(x, type(y)), subclasses included
  )
}

=== FILE: legacy_propagation.dfy ===
/**
 * The original `randify(foo, N)` wrapper: generator-mode inputs are sampled to the
 * resolved count, they switch to sample mode, and `foo` runs once per index. Output
 * index `t` is `foo` on the inputs' samples at index `t`, for every `t`.
 */
module LegacyPropagation {
  import opened Outcomes
  import opened Host
  import opened Variables
  import opened Engine
  import LegacyRandomVariables

  /** `N_default`: the sample count when neither a pool nor `N` fixes it. */
  const DefaultCount: int := 100000

  /** `N_samples` after resolution: the pools' common length, else `N`, else `N_default`. */
  function SampleCount(n: int, resolved: int): (r: int)
    ensures resolved != -1 ==> r == resolved
    ensures resolved == -1 && n != -1 ==> r == n
    ensures resolved == -1 && n == -1 ==> r == DefaultCount
  {
    if resolved != -1 then resolved else if n == -1 then DefaultCount else n
  }

  /**
   * The sampling loop from position `k` on: every variable still in generator mode is
   * sampled to `n`, which switches it to sample mode. A variable passed twice is
   * sampled once, because the second visit sees it in sample mode.
   */
  function Materialise<V>(store: seq<RandomVariable<V>>, initial: seq<Arg<V>>, k: nat, n: int)
    : (r: seq<RandomVariable<V>>)
    requires k <= |initial| && RefsValid(initial, store)
    decreases |initial| - k
    ensures |r| == |store|
    ensures forall id :: 0 <= id < |store| && store[id].SampleBacked? ==> r[id] == store[id]
    ensures forall id :: 0 <= id < |store| && !RefersTo(initial, k, id) ==> r[id] == store[id]
    ensures forall i :: k <= i < |initial| && initial[i].Ref? ==> r[initial[i].id].SampleBacked?
    ensures forall id :: 0 <= id < |store| && store[id].GeneratorBacked? && RefersTo(initial, k, id) ==>
      r[id] == LegacyRandomVariables.Sample(store[id], n)
  {
    if k == |initial| then store
    else if initial[k].Ref? && store[initial[k].id].GeneratorBacked? then
      var id := initial[k].id;
      Materialise(store[id := LegacyRandomVariables.Sample(store[id], n)], initial, k + 1, n)
    else
      Materialise(store, initial, k + 1, n)
  }

  /** After the sampling loop every referenced variable holds exactly `Count(n)` samples. */
  lemma MaterialisedPools<V>(store: seq<RandomVariable<V>>, initial: seq<Arg<V>>, n: int)
    requires RefsValid(initial, store)
    requires ResolveCount(store, initial).Ok?
    ensures
      var m := SampleCount(n, ResolveCount(store, initial).value);
      var s := Materialise(store, initial, 0, m);
      forall i :: 0 <= i < |initial| && initial[i].Ref? ==>
        initial[i].id < |s| && s[initial[i].id].SampleBacked? && |s[initial[i].id].pool| == Count(m)
  {
    var c := ResolveCount(store, initial).value;
    var m := SampleCount(n, c);
    var s := Materialise(store, initial, 0, m);
    forall i | 0 <= i < |initial| && initial[i].Ref?
      ensures initial[i].id < |s| && s[initial[i].id].SampleBacked? && |s[initial[i].id].pool| == Count(m)
    {
      var id := initial[i].id;
      assert RefersTo(initial, 0, id);
      if store[id].SampleBacked? {
        assert IsSampleRef(store, initial, i);
        assert PoolLength(store, initial, i) == c;
      }
    }
  }

  /**
   * For a function with a single (non-tuple) result the output pool is index-aligned
   * with the inputs: its sample `t` is `foo` on the inputs' samples at index `t`.
   */
  lemma IndexAligned<V>(refl: Reflection<V>, foo: Callee<V>, s: seq<RandomVariable<V>>, initial: seq<Arg<V>>,
                        m: int, columns: seq<seq<V>>)
    requires m > 0 && forall t :: 0 <= t < m ==> ReadableAt(s, initial, t)
    requires OutputAt(foo, s, initial, 0).Ok? && !Tupled(refl, OutputAt(foo, s, initial, 0).value)
    requires ColumnsFit(refl, foo, s, initial, OutputAt(foo, s, initial, 0).value, m, columns)
    ensures |columns| == 1 && |columns[0]| == m
    ensures forall t :: 0 <= t < m ==> OutputAt(foo, s, initial, t).Ok? && columns[0][t] == OutputAt(foo, s, initial, t).value
  {
    var y := OutputAt(foo, s, initial, 0).value;
    forall t | 1 <= t < m
      ensures OutputAt(foo, s, initial, t).Ok? && columns[0][t] == OutputAt(foo, s, initial, t).value
    {
      assert RowAt(refl, foo, s, initial, y, t).Ok?;
      assert RowAt(refl, foo, s, initial, y, t) == Ok([OutputAt(foo, s, initial, t).value]);
    }
  }

  /**
   * What the wrapped call does once some argument is a random variable. With no index
   * to run (`N_samples <= 0`) the arity of the result is never fixed and `inner` fails.
   */
  ghost predicate Propagated<V>(n: int, foo: Callee<V>, refl: Reflection<V>, store: seq<RandomVariable<V>>,
                                initial: seq<Arg<V>>, inv: Invocation<V>)
    requires RefsValid(initial, store)
  {
    !(inv.result.Ok? && inv.result.value.Direct?) &&
    // disagreeing pools fail before anything is sampled
    (ResolveCount(store, initial).Err? ==> inv == Invocation(Err(AssertionError), store, 0)) &&
    (ResolveCount(store, initial).Ok? ==>
      var m := SampleCount(n, ResolveCount(store, initial).value);
      var s := Materialise(store, initial, 0, m);
      // the variables as the call leaves them: all in sample mode with m samples
      inv.store == s &&
      (forall id :: 0 <= id < |store| && store[id].SampleBacked? ==> inv.store[id] == store[id]) &&
      (forall i :: 0 <= i < |initial| && initial[i].Ref? ==>
         inv.store[initial[i].id].SampleBacked? && |inv.store[initial[i].id].pool| == Count(m)) &&
      // every pool read of the loop is in bounds
      (forall t :: 0 <= t < m ==> ReadableAt(s, initial, t)) &&
      (m <= 0 ==> inv.result == Err(UnboundLocalError) && inv.fooCalls == 0) &&
      // index 0 fixes the arity, then the loop runs from index 1 on
      (m > 0 ==>
         var first := OutputAt(foo, s, initial, 0);
         // what `foo` raises at index 0 passes through, with the variables already sampled
         (first.Err? ==> inv.result == Err(first.error) && inv.fooCalls == 1) &&
         (first.Ok? ==> LoopOutcome(refl, foo, s, initial, first.value, m, inv.result, inv.fooCalls - 1))))
  }

  /** The wrapped call once some argument is a random variable. */
  method Propagate<V>(n: int, foo: Callee<V>, refl: Reflection<V>, store: seq<RandomVariable<V>>, initial: seq<Arg<V>>)
    returns (inv: Invocation<V>)
    requires RefsValid(initial, store)
    ensures Propagated(n, foo, refl, store, initial, inv)
  {
    var count := ResolveCount(store, initial);
    if count.Err? {
      return Invocation(Err(AssertionError), store, 0);
    }
    var m := SampleCount(n, count.value);
    var s := Materialise(store, initial, 0, m);
    MaterialisedPools(store, initial, n);
    if m <= 0 {
      return Invocation(Err(UnboundLocalError), s, 0);
    }
    var first := foo.call(ArgumentsAt(s, initial, 0), []);
    assert first == OutputAt(foo, s, initial, 0);
    if first.Err? {
      return Invocation(Err(first.error), s, 1);
    }
    var y := first.value;
    var result, calls := Simulate(refl, foo, s, initial, y, m);
    inv := Invocation(result, s, 1 + calls);
  }

  /**
   * The wrapped call `inner(*args, **kwargs)`. `store` holds the random variables the
   * arguments refer to, and the invocation returns them as the call leaves them.
   */
  method Randify<V>(n: int, foo: Callee<V>, refl: Reflection<V>, store: seq<RandomVariable<V>>,
                    args: seq<Arg<V>>, kwargs: seq<(string, Arg<V>)>) returns (inv: Invocation<V>)
    requires RefsValid(Initial(args, kwargs), store)
    // without random arguments the call is transparent
    ensures !HasRandom(Initial(args, kwargs)) ==>
      (forall i :: 0 <= i < |args| ==> args[i].Plain?) &&
      (forall i :: 0 <= i < |kwargs| ==> kwargs[i].1.Plain?) &&
      var direct := foo.call(Values(args), KeywordValues(kwargs));
      inv.store == store && inv.fooCalls == 1 &&
      (direct.Ok? ==> inv.result == Ok(Direct(direct.value))) &&
      (direct.Err? ==> inv.result == Err(direct.error))
    // with one, every call goes through the sampling engine
    ensures HasRandom(Initial(args, kwargs)) ==> Propagated(n, foo, refl, store, Initial(args, kwargs), inv)
  {
    var initial := Initial(args, kwargs);
    var indices := RandomIndices(initial);
    if |indices| == 0 {
      assert forall i :: 0 <= i < |args| ==> initial[i] == args[i];
      assert forall i :: 0 <= i < |kwargs| ==> initial[|args| + i] == kwargs[i].1;
      var direct := foo.call(Values(args), KeywordValues(kwargs));
      var result := if direct.Ok? then Ok(Direct(direct.value)) else Err(direct.error);
      return Invocation(result, store, 1);
    }
    assert initial[indices[0]].Ref?;
    inv := Propagate(n, foo, refl, store, initial);
  }
}

=== FILE: legacy_random_variables.dfy ===
/**
 * The older `RandomVariable` class (the PDFtimate package): keyword `generator`,
 * sequential sampling that switches to sample mode, and mean and variance of either
 * the samples or one attribute of them.
 */
module LegacyRandomVariables {
  import opened Outcomes
  import opened Host
  import opened Variables
  import Moments

  const GeneratorKeyword: string := "generator"

  /** `RandomVariable(*args, **kwargs)` with the `generator` keyword. */
  function Construct<V>(refl: Reflection<V>, args: seq<PyArg<V>>, kwargs: seq<(string, PyArg<V>)>): (r: Result<RandomVariable<V>>)
    ensures (!ListFirst(args) && Lookup(kwargs, "samples").None? && !CallableFirst(args)) ==>
      (r.Ok? <==> Lookup(kwargs, GeneratorKeyword).Some? && Lookup(kwargs, GeneratorKeyword).value.Callable?)
    ensures r.Ok? && r.value.GeneratorBacked? ==> r.value.gen.calls == 1 && r.value.example == Draw(r.value.gen, 0)
    ensures r.Ok? && r.value.SampleBacked? ==> |r.value.pool| > 0 && r.value.example == r.value.pool[0]
  {
    Variables.Construct(refl, args, kwargs, GeneratorKeyword)
  }

  /**
   * `sample(n)`: in generator mode, `n` sequential draws become the pool and the
   * variable switches to sample mode; in sample mode nothing happens.
   */
  function Sample<V>(rv: RandomVariable<V>, n: int): (r: RandomVariable<V>)
    ensures r.SampleBacked?
    ensures rv.SampleBacked? ==> r == rv
    ensures rv.GeneratorBacked? ==>
      r.example == rv.example && r.typeName == rv.typeName && |r.pool| == Count(n) &&
      forall k :: 0 <= k < Count(n) ==> r.pool[k] == Draw(rv.gen, rv.gen.calls + k)
  {
    match rv
    case SampleBacked(_, _, _) => rv
    case GeneratorBacked(g, _, example, typeName) =>
      SampleBacked(seq(Count(n), k requires 0 <= k < Count(n) => Draw(g, g.calls + k)), example, typeName)
  }

  /** Once sampled, a variable keeps its pool: a second `sample` call changes nothing. */
  lemma SampleIdempotent<V>(rv: RandomVariable<V>, n: int, m: int)
    ensures Sample(Sample(rv, n), m) == Sample(rv, n)
  {}

  /** The numbers `expected_value(property)` sums: the samples or their attribute. */
  function Pool<V>(refl: Reflection<V>, rv: RandomVariable<V>, property: Option<string>): (r: Result<seq<real>>)
    ensures r.Ok? ==> rv.Samples().Some? && |r.value| == |rv.Samples().value|
    ensures property.None? ==> (r.Ok? <==> rv.Samples().Some? && Numbers(refl, rv.Samples().value).Some?)
    ensures property.Some? ==>
      (r.Ok? <==> rv.Samples().Some? && Attrs(refl, rv.Samples().value, property.value).Some? &&
                  Numbers(refl, Attrs(refl, rv.Samples().value, property.value).value).Some?)
    ensures r.Ok? && property.None? ==> r.value == Numbers(refl, rv.Samples().value).value
    ensures r.Ok? && property.Some? ==>
      r.value == Numbers(refl, Attrs(refl, rv.Samples().value, property.value).value).value
    ensures r.Err? ==>
      r.error == (if rv.Samples().None? then AttributeError
                  else if property.Some? && Attrs(refl, rv.Samples().value, property.value).None? then AttributeError
                  else TypeError)
  {
    match rv.Samples()
    case None => Err(AttributeError)
    case Some(xs) =>
      var ys :- match property
        case None => Ok(xs)
        case Some(p) => (match Attrs(refl, xs, p) case None => Err(AttributeError) case Some(a) => Ok(a));
      match Numbers(refl, ys)
      case None => Err(TypeError)
      case Some(zs) => Ok(zs)
  }

  /** `expected_value(property)`: the mean of the samples, or of the given attribute of them. */
  function ExpectedValue<V>(refl: Reflection<V>, rv: RandomVariable<V>, property: Option<string>): (r: Result<real>)
    ensures r.Ok? <==> Pool(refl, rv, property).Ok? && |Pool(refl, rv, property).value| > 0
    ensures r.Ok? ==>
      r.value * (|Pool(refl, rv, property).value| as real) == Moments.Sum(Pool(refl, rv, property).value)
    ensures r.Err? ==>
      r.error == (if Pool(refl, rv, property).Err? then Pool(refl, rv, property).error else ZeroDivisionError)
  {
    var xs :- Pool(refl, rv, property);
    Moments.ExpectedValue(xs)
  }

  /** `variance(property)`: Bessel-corrected, about the mean of the same numbers; fails below two samples. */
  function Variance<V>(refl: Reflection<V>, rv: RandomVariable<V>, property: Option<string>): (r: Result<real>)
    ensures r.Ok? <==> Pool(refl, rv, property).Ok? && |Pool(refl, rv, property).value| >= 2
    ensures r.Ok? ==>
      var xs := Pool(refl, rv, property).value;
      r.value >= 0.0 &&
      r.value * ((|xs| - 1) as real) == Moments.CentralSum(xs, ExpectedValue(refl, rv, property).value, 2)
    ensures r.Err? ==>
      r.error == (if Pool(refl, rv, property).Err? then Pool(refl, rv, property).error else ZeroDivisionError)
  {
    var xs :- Pool(refl, rv, property);
    Moments.Variance(xs)
  }

  /**
   * The mean of an attribute equals the mean of the projected variable
   * (`expected_value(p) == __call__(p).expected_value()`) whenever the pool is non-empty.
   */
  lemma ExpectedValueOfProjection<V>(refl: Reflection<V>, rv: RandomVariable<V>, p: string)
    requires rv.Samples().Some? && |rv.Samples().value| > 0
    ensures ExpectedValue(refl, rv, Some(p)) ==
      (match Project(refl, rv, Some(p))
       case Ok(q) => ExpectedValue(refl, q, None)
       case Err(e) => Err(e))
  {
    var xs := rv.Samples().value;
    var ys := Attrs(refl, xs, p);
    if ys.Some? {
      assert Project(refl, rv, Some(p)) == FromPool(refl, ys.value);
      assert Pool(refl, Project(refl, rv, Some(p)).value, None) == Pool(refl, rv, Some(p));
    }
  }

  /** Likewise for the variance: `variance(p) == __call__(p).variance()` on a non-empty pool. */
  lemma VarianceOfProjection<V>(refl: Reflection<V>, rv: RandomVariable<V>, p: string)
    requires rv.Samples().Some? && |rv.Samples().value| > 0
    ensures Variance(refl, rv, Some(p)) ==
      (match Project(refl, rv, Some(p))
       case Ok(q) => Variance(refl, q, None)
       case Err(e) => Err(e))
  {
    var xs := rv.Samples().value;
    var ys := Attrs(refl, xs, p);
    if ys.Some? {
      assert Project(refl, rv, Some(p)) == FromPool(refl, ys.value);
      assert Pool(refl, Project(refl, rv, Some(p)).value, None) == Pool(refl, rv, Some(p));
    }
  }
}

=== FILE: moments.dfy ===
/**
 * The moment formulas of `RandomVariable` as closed-form folds over a pool of reals.
 * Real arithmetic is the exact idealisation of the float code; a zero denominator
 * is Python's ZeroDivisionError.
 */
module Moments {
  import opened Outcomes

  /** Python's `sum` over the pool. */
  function Sum(xs: seq<real>): real {
    if |xs| == 0 then 0.0 else xs[0] + Sum(xs[1..])
  }

  /** `x ** k` for a natural exponent. */
  function Pow(x: real, k: nat): real {
    if k == 0 then 1.0 else x * Pow(x, k - 1)
  }

  /** `sum([(x - mu) ** k for x in xs])`. */
  function CentralSum(xs: seq<real>, mu: real, k: nat): real {
    if |xs| == 0 then 0.0 else Pow(xs[0] - mu, k) + CentralSum(xs[1..], mu, k)
  }

  /** The arithmetic mean. */
  function Mean(xs: seq<real>): real
    requires |xs| > 0
  {
    Sum(xs) / (|xs| as real)
  }

  /** Every sample equals every other. */
  predicate Constant(xs: seq<real>) {
    forall i, j :: 0 <= i < |xs| && 0 <= j < |xs| ==> xs[i] == xs[j]
  }

  function Shift(xs: seq<real>, c: real): (r: seq<real>)
    ensures |r| == |xs| && forall i :: 0 <= i < |xs| ==> r[i] == xs[i] + c
  {
    seq(|xs|, i requires 0 <= i < |xs| => xs[i] + c)
  }

  function Negate(xs: seq<real>): (r: seq<real>)
    ensures |r| == |xs| && forall i :: 0 <= i < |xs| ==> r[i] == -xs[i]
  {
    seq(|xs|, i requires 0 <= i < |xs| => -xs[i])
  }

  /** `expected_value`: sum over count; an empty pool divides by zero. */
  function ExpectedValue(xs: seq<real>): (r: Result<real>)
    ensures r.Ok? <==> |xs| > 0
    ensures r.Err? ==> r.error == ZeroDivisionError
    ensures r.Ok? ==> r.value * (|xs| as real) == Sum(xs)
  {
    if |xs| == 0 then Err(ZeroDivisionError) else Ok(Mean(xs))
  }

  /** `variance`: squared deviations over n - 1 (Bessel's correction). */
  function Variance(xs: seq<real>): (r: Result<real>)
    ensures r.Ok? <==> |xs| >= 2
    ensures r.Err? ==> r.error == ZeroDivisionError
    ensures r.Ok? ==> r.value * ((|xs| - 1) as real) == CentralSum(xs, Mean(xs), 2)
    ensures r.Ok? ==> r.value >= 0.0
  {
    var mu :- ExpectedValue(xs);
    if |xs| == 1 then Err(ZeroDivisionError)
    else
      SquaresNonNegative(xs, mu);
      Ok(CentralSum(xs, mu, 2) / ((|xs| - 1) as real))
  }

  /** `(n - 1)(n - 2) * variance ** 1.5`, with `root(v)` standing for `v ** 1.5`. */
  function SkewnessDenominator(n: nat, v: real, root: real -> real): real {
    ((n as real) - 1.0) * ((n as real) - 2.0) * root(v)
  }

  /** `(n - 1)(n - 2)(n - 3) * variance ** 2`. */
  function KurtosisDenominator(n: nat, v: real): real {
    ((n as real) - 1.0) * ((n as real) - 2.0) * ((n as real) - 3.0) * Pow(v, 2)
  }

  /** The skewness numerator, `n * Σ(x - mu)^3`. */
  function SkewnessNumerator(xs: seq<real>): real
    requires |xs| > 0
  {
    CentralSum(xs, Mean(xs), 3) * (|xs| as real)
  }

  /** The kurtosis numerator, `n(n + 1) * Σ(x - mu)^4`. */
  function KurtosisNumerator(xs: seq<real>): real
    requires |xs| > 0
  {
    CentralSum(xs, Mean(xs), 4) * (|xs| as real) * ((|xs| as real) + 1.0)
  }

  /** `skewness`: n * Σ(x - mu)^3 / ((n - 1)(n - 2) * variance ** 1.5). */
  function Skewness(xs: seq<real>, root: real -> real): (r: Result<real>)
    ensures r.Ok? ==> |xs| >= 2 && SkewnessDenominator(|xs|, Variance(xs).value, root) != 0.0
    ensures r.Ok? ==>
      r.value * SkewnessDenominator(|xs|, Variance(xs).value, root) == CentralSum(xs, Mean(xs), 3) * (|xs| as real)
    ensures r.Err? ==> r.error == ZeroDivisionError
  {
    var mu :- ExpectedValue(xs);
    var v :- Variance(xs);
    var denominator := SkewnessDenominator(|xs|, v, root);
    if denominator == 0.0 then Err(ZeroDivisionError)
    else
      QuotientTimes(CentralSum(xs, mu, 3) * (|xs| as real), denominator);
      Ok(CentralSum(xs, mu, 3) * (|xs| as real) / denominator)
  }

  /** Division undone by multiplication. */
  lemma QuotientTimes(a: real, d: real)
    requires d != 0.0
    ensures (a / d) * d == a
  {}

  /** `kurtosis`: n(n + 1) * Σ(x - mu)^4 / ((n - 1)(n - 2)(n - 3) * variance^2), not excess. */
  function Kurtosis(xs: seq<real>): (r: Result<real>)
    ensures r.Ok? ==> |xs| >= 2 && KurtosisDenominator(|xs|, Variance(xs).value) != 0.0
    ensures r.Ok? ==>
      var n := |xs| as real;
      r.value * KurtosisDenominator(|xs|, Variance(xs).value) == CentralSum(xs, Mean(xs), 4) * n * (n + 1.0)
    ensures r.Err? ==> r.error == ZeroDivisionError
  {
    var mu :- ExpectedValue(xs);
    var v :- Variance(xs);
    var n := |xs| as real;
    var denominator := KurtosisDenominator(|xs|, v);
    if denominator == 0.0 then Err(ZeroDivisionError)
    else
      QuotientTimes(CentralSum(xs, mu, 4) * n * (n + 1.0), denominator);
      Ok(CentralSum(xs, mu, 4) * n * (n + 1.0) / denominator)
  }

  // ---------------------------------------------------------------------------
  // Lemmas about the formulas
  // ---------------------------------------------------------------------------

  lemma PowUnfold(d: real)
    ensures Pow(d, 2) == d * d
    ensures Pow(d, 3) == d * (d * d)
    ensures Pow(d, 4) == (d * d) * (d * d)
  {
    assert Pow(d, 1) == d * Pow(d, 0) == d;
    assert Pow(d, 2) == d * Pow(d, 1);
    assert Pow(d, 3) == d * Pow(d, 2);
    assert Pow(d, 4) == d * Pow(d, 3);
  }

  lemma ProductPositive(a: real, b: real)
    requires a > 0.0 && b > 0.0
    ensures a * b > 0.0
  {}

  lemma CubeSign(v: real)
    ensures v > 0.0 ==> Pow(v, 3) > 0.0
    ensures v == 0.0 ==> Pow(v, 3) == 0.0
  {
    PowUnfold(v);
    if v > 0.0 {
      ProductPositive(v, v);
      ProductPositive(v, v * v);
    }
  }

  lemma FourFactorsPositive(a: real, b: real, c: real, d: real)
    requires a > 0.0 && b > 0.0 && c > 0.0 && d > 0.0
    ensures a * b * c * d > 0.0
  {}

  lemma SquarePositive(d: real)
    ensures d * d >= 0.0
    ensures d != 0.0 ==> d * d > 0.0
  {
    if d > 0.0 { ProductPositive(d, d); }
    if d < 0.0 { ProductPositive(-d, -d); assert (-d) * (-d) == d * d; }
  }

  lemma SquareNonNegative(d: real)
    ensures Pow(d, 2) >= 0.0
    ensures Pow(d, 2) == 0.0 <==> d == 0.0
  {
    PowUnfold(d);
    SquarePositive(d);
  }

  /** Squared deviations sum to a non-negative number, zero exactly when every sample is `mu`. */
  lemma {:induction false} SquaresNonNegative(xs: seq<real>, mu: real)
    ensures CentralSum(xs, mu, 2) >= 0.0
    ensures CentralSum(xs, mu, 2) == 0.0 <==> forall i :: 0 <= i < |xs| ==> xs[i] == mu
  {
    if |xs| > 0 {
      SquareNonNegative(xs[0] - mu);
      SquaresNonNegative(xs[1..], mu);
      if CentralSum(xs, mu, 2) == 0.0 {
        forall i | 0 <= i < |xs| ensures xs[i] == mu {
          if i > 0 { assert xs[i] == xs[1..][i - 1]; }
        }
      }
      if forall i :: 0 <= i < |xs| ==> xs[i] == mu {
        assert forall i :: 0 <= i < |xs[1..]| ==> xs[1..][i] == mu by {
          forall i | 0 <= i < |xs[1..]| ensures xs[1..][i] == mu { assert xs[1..][i] == xs[i + 1]; }
        }
      }
    }
  }

  /** Fourth powers of deviations sum to a non-negative number. */
  lemma {:induction false} FourthPowersNonNegative(xs: seq<real>, mu: real)
    ensures CentralSum(xs, mu, 4) >= 0.0
  {
    if |xs| > 0 {
      var d := xs[0] - mu;
      PowUnfold(d);
      SquarePositive(d);
      SquarePositive(d * d);
      FourthPowersNonNegative(xs[1..], mu);
    }
  }

  /** The sum of a pool every element of which is `c`. */
  lemma {:induction false} SumOfConstant(xs: seq<real>, c: real)
    requires forall i :: 0 <= i < |xs| ==> xs[i] == c
    ensures Sum(xs) == (|xs| as real) * c
  {
    if |xs| > 0 {
      assert forall i :: 0 <= i < |xs[1..]| ==> xs[1..][i] == xs[i + 1];
      SumOfConstant(xs[1..], c);
    }
  }

  /** A pool of at least two samples has zero variance exactly when it is constant. */
  lemma VarianceZeroIffConstant(xs: seq<real>)
    requires |xs| >= 2
    ensures Variance(xs).value == 0.0 <==> Constant(xs)
  {
    var mu := Mean(xs);
    var n := (|xs| - 1) as real;
    SquaresNonNegative(xs, mu);
    assert Variance(xs).value * n == CentralSum(xs, mu, 2);
    if Constant(xs) {
      SumOfConstant(xs, xs[0]);
      assert mu == xs[0];
    }
    if Variance(xs).value == 0.0 {
      assert forall i :: 0 <= i < |xs| ==> xs[i] == mu;
    }
  }

  /** The mean lies between any lower and upper bound of the samples. */
  lemma {:induction false} SumBounds(xs: seq<real>, lo: real, hi: real)
    requires forall i :: 0 <= i < |xs| ==> lo <= xs[i] <= hi
    ensures (|xs| as real) * lo <= Sum(xs) <= (|xs| as real) * hi
  {
    if |xs| > 0 {
      assert forall i :: 0 <= i < |xs[1..]| ==> xs[1..][i] == xs[i + 1];
      SumBounds(xs[1..], lo, hi);
      var m := (|xs| - 1) as real;
      AddOneFactor(m, lo);
      AddOneFactor(m, hi);
      assert (|xs| as real) == m + 1.0;
    }
  }

  /** One more summand of `x`. */
  lemma AddOneFactor(m: real, x: real)
    ensures (m + 1.0) * x == m * x + x
  {}

  lemma MeanWithinBounds(xs: seq<real>, lo: real, hi: real)
    requires |xs| > 0
    requires forall i :: 0 <= i < |xs| ==> lo <= xs[i] <= hi
    ensures lo <= ExpectedValue(xs).value <= hi
  {
    SumBounds(xs, lo, hi);
    var n := |xs| as real;
    var m := ExpectedValue(xs).value;
    assert m * n == Sum(xs);
    assert n * lo <= m * n <= n * hi;
    if m < lo { ProductPositive(lo - m, n); }
    if m > hi { ProductPositive(m - hi, n); }
  }

  // --- shift invariance ------------------------------------------------------

  lemma {:induction false} SumShift(xs: seq<real>, c: real)
    ensures Sum(Shift(xs, c)) == Sum(xs) + (|xs| as real) * c
  {
    if |xs| > 0 {
      assert Shift(xs, c)[1..] == Shift(xs[1..], c);
      SumShift(xs[1..], c);
    }
  }

  lemma {:induction false} CentralSumShift(xs: seq<real>, mu: real, c: real, k: nat)
    ensures CentralSum(Shift(xs, c), mu + c, k) == CentralSum(xs, mu, k)
  {
    if |xs| > 0 {
      assert Shift(xs, c)[1..] == Shift(xs[1..], c);
      assert Shift(xs, c)[0] - (mu + c) == xs[0] - mu;
      CentralSumShift(xs[1..], mu, c, k);
    }
  }

  lemma MeanShift(xs: seq<real>, c: real)
    requires |xs| > 0
    ensures Mean(Shift(xs, c)) == Mean(xs) + c
  {
    SumShift(xs, c);
    var n := |xs| as real;
    assert Mean(Shift(xs, c)) * n == Sum(xs) + n * c;
    assert Mean(xs) * n == Sum(xs);
    assert (Mean(xs) + c) * n == Sum(xs) + n * c;
  }

  /** Adding a constant to every sample leaves the variance unchanged. */
  lemma VarianceShiftInvariant(xs: seq<real>, c: real)
    ensures Variance(Shift(xs, c)) == Variance(xs)
  {
    if |xs| >= 2 {
      MeanShift(xs, c);
      CentralSumShift(xs, Mean(xs), c, 2);
    }
  }

  // --- negation flips the skewness -----------------------------------------

  lemma {:induction false} SumNegate(xs: seq<real>)
    ensures Sum(Negate(xs)) == -Sum(xs)
  {
    if |xs| > 0 {
      assert Negate(xs)[1..] == Negate(xs[1..]);
      SumNegate(xs[1..]);
    }
  }

  lemma {:induction false} CentralSumNegate(xs: seq<real>, mu: real)
    ensures CentralSum(Negate(xs), -mu, 2) == CentralSum(xs, mu, 2)
    ensures CentralSum(Negate(xs), -mu, 3) == -CentralSum(xs, mu, 3)
  {
    if |xs| > 0 {
      var d := xs[0] - mu;
      assert Negate(xs)[1..] == Negate(xs[1..]);
      assert Negate(xs)[0] - (-mu) == -d;
      PowUnfold(d);
      PowUnfold(-d);
      CentralSumNegate(xs[1..], mu);
    }
  }

  /** Mirroring every sample leaves the variance unchanged and negates the skewness. */
  lemma SkewnessNegation(xs: seq<real>, root: real -> real)
    ensures Variance(Negate(xs)) == Variance(xs)
    ensures Skewness(Negate(xs), root).Ok? <==> Skewness(xs, root).Ok?
    ensures Skewness(xs, root).Ok? ==> Skewness(Negate(xs), root).value == -Skewness(xs, root).value
  {
    if |xs| > 0 {
      SumNegate(xs);
      assert Mean(Negate(xs)) == -Mean(xs);
      CentralSumNegate(xs, Mean(xs));
    }
  }

  // --- when the higher moments are defined ---------------------------------

  /** `root` is the exact power `v ** 1.5` on non-negative reals. */
  ghost predicate ExactRoot(root: real -> real) {
    forall v :: v >= 0.0 ==> root(v) >= 0.0 && Pow(root(v), 2) == Pow(v, 3)
  }

  lemma RootZeroIff(root: real -> real, v: real)
    requires ExactRoot(root)
    requires v >= 0.0
    ensures root(v) == 0.0 <==> v == 0.0
  {
    CubeSign(v);
    SquareNonNegative(root(v));
  }

  lemma SkewnessDenominatorZeroIff(n: nat, v: real, root: real -> real)
    requires ExactRoot(root)
    requires n >= 2 && v >= 0.0
    ensures SkewnessDenominator(n, v, root) == 0.0 <==> n == 2 || v == 0.0
  {
    RootZeroIff(root, v);
    var m := n as real;
    if n == 2 {
      assert m - 2.0 == 0.0;
    } else if v == 0.0 {
      assert root(v) == 0.0;
    } else {
      ProductPositive(m - 1.0, m - 2.0);
      ProductPositive((m - 1.0) * (m - 2.0), root(v));
    }
  }

  lemma KurtosisDenominatorSign(n: nat, v: real)
    requires n >= 2
    ensures KurtosisDenominator(n, v) == 0.0 <==> n < 4 || v == 0.0
    ensures n >= 4 && v != 0.0 ==> KurtosisDenominator(n, v) > 0.0
  {
    var m := n as real;
    if n == 2 {
      assert m - 2.0 == 0.0;
    } else if n == 3 {
      assert m - 3.0 == 0.0;
    } else {
      SquareNonNegative(v);
      if v != 0.0 {
        FourFactorsPositive(m - 1.0, m - 2.0, m - 3.0, Pow(v, 2));
      }
    }
  }

  /** Skewness is defined exactly for pools of at least three samples that are not constant. */
  lemma SkewnessDefinedIff(xs: seq<real>, root: real -> real)
    ensures ExactRoot(root) ==> (Skewness(xs, root).Ok? <==> |xs| >= 3 && !Constant(xs))
  {
    if |xs| >= 2 && ExactRoot(root) {
      VarianceZeroIffConstant(xs);
      SkewnessDenominatorZeroIff(|xs|, Variance(xs).value, root);
    }
  }

  /** Kurtosis is defined exactly for pools of at least four samples that are not constant. */
  lemma KurtosisDefinedIff(xs: seq<real>)
    ensures Kurtosis(xs).Ok? <==> |xs| >= 4 && !Constant(xs)
  {
    if |xs| >= 2 {
      VarianceZeroIffConstant(xs);
      KurtosisDenominatorSign(|xs|, Variance(xs).value);
    }
  }

  lemma QuotientNonNegative(a: real, b: real)
    requires a >= 0.0 && b > 0.0
    ensures a / b >= 0.0
  {}

  /** The raw (non-excess) kurtosis is never negative. */
  lemma KurtosisNonNegative(xs: seq<real>)
    ensures Kurtosis(xs).Ok? ==> Kurtosis(xs).value >= 0.0
  {
    if Kurtosis(xs).Ok? {
      var mu := Mean(xs);
      var v := Variance(xs).value;
      var n := |xs| as real;
      KurtosisDefinedIff(xs);
      VarianceZeroIffConstant(xs);
      KurtosisDenominatorSign(|xs|, v);
      FourthPowersNonNegative(xs, mu);
      ProductPositive(n, n + 1.0);
      var c := CentralSum(xs, mu, 4);
      assert c * n * (n + 1.0) == c * (n * (n + 1.0));
      assert c * (n * (n + 1.0)) >= 0.0;
      QuotientNonNegative(c * n * (n + 1.0), KurtosisDenominator(|xs|, v));
    }
  }
}

=== FILE: outcomes.dfy ===
/** Failure-carrying wrappers shared by every module of the model. */
module Outcomes {

  /** An optional value: Python's `None` or a present value. */
  datatype Option<+T> = None | Some(value: T)

  /** The built-in Python exception kinds the modelled code raises. */
  datatype Error =
    | ValueError          // invalid construction, query arity or query shape
    | IndexError          // indexing an empty pool or a too-short result tuple
    | TypeError           // a value that is not subscriptable, callable, numeric or a tuple
    | AttributeError      // a missing `samples` pool or projected attribute
    | ZeroDivisionError   // a moment whose denominator is zero
    | AssertionError      // propagation over pools of different lengths
    | UnboundLocalError   // legacy propagation that never evaluated its function
    | Raised(kind: string) // any other exception a supplied function raises, by class name

  /** Either a value or the exception that aborted the computation. */
  datatype Result<+T> = Ok(value: T) | Err(error: Error) {

    predicate IsFailure() {
      Err?
    }

    function PropagateFailure<U>(): Result<U>
      requires Err?
    {
      Err(error)
    }

    function Extract(): T
      requires Ok?
    {
      value
    }
  }
}

=== FILE: propagation.dfy ===
/**
 * The newer `randify(N, duration, verbose)` decorator: the wrapped function is first
 * evaluated 20 times on one warm-up draw (for timing), the generator-mode inputs are
 * then sampled, and `foo` runs once per remaining index. Output index 0 is the
 * warm-up result.
 */
module Propagation {
  import opened Outcomes
  import opened Host
  import opened Variables
  import opened Engine
  import RandomVariables

  /** `N_determine_duration`: how often `foo` runs on the warm-up arguments. */
  const WarmUpCalls: nat := 20

  /**
   * The decorator's configuration: `N` (-1 for automatic) and the count the timing
   * would produce, `int(20 * duration / duration_foo)`, which is supplied here.
   */
  datatype Config = Config(n: int, timedCount: int)

  /** `N_samples` after resolution: the pools' common length, else `N`, else the timed count. */
  function SampleCount(cfg: Config, resolved: int): (n: int)
    ensures resolved != -1 ==> n == resolved
    ensures resolved == -1 && cfg.n != -1 ==> n == cfg.n
    ensures resolved == -1 && cfg.n == -1 ==> n == cfg.timedCount
  {
    if resolved != -1 then resolved else if cfg.n != -1 then cfg.n else cfg.timedCount
  }

  /** Both modes are preserved, and sample-mode variables are not touched. */
  ghost predicate Preserves<V>(before: seq<RandomVariable<V>>, after: seq<RandomVariable<V>>) {
    |after| == |before| &&
    (forall id :: 0 <= id < |before| ==> after[id].SampleBacked? == before[id].SampleBacked?) &&
    (forall id :: 0 <= id < |before| && before[id].SampleBacked? ==> after[id] == before[id])
  }

  /** How many of the positions `lo .. hi-1` refer to variable `id`. */
  function Occurrences<V>(initial: seq<Arg<V>>, lo: nat, hi: nat, id: nat): nat
    requires lo <= hi <= |initial|
    decreases hi - lo
  {
    if lo == hi then 0 else (if initial[lo] == Ref(id) then 1 else 0) + Occurrences(initial, lo + 1, hi, id)
  }

  /** The value the warm-up passes for a generator-mode variable: the first sample of `sample(1)`. */
  function WarmUpDraw<V>(refl: Reflection<V>, rv: RandomVariable<V>): V
    requires rv.GeneratorBacked?
  {
    RandomVariables.Sample(refl, rv, 1).drawn.value[0]
  }

  /**
   * A variable after `m` warm-up calls `sample(1)`: a variable passed at several
   * positions is sampled once per position.
   */
  function WarmedUp<V>(refl: Reflection<V>, rv: RandomVariable<V>, m: nat): (r: RandomVariable<V>)
    ensures rv.SampleBacked? ==> r == rv
    ensures rv.GeneratorBacked? ==>
      r.GeneratorBacked? && r.gen.func == rv.gen.func && r.gen.args == rv.gen.args && r.gen.kwargs == rv.gen.kwargs &&
      r.example == rv.example && r.typeName == rv.typeName && r.gen.calls >= rv.gen.calls + m
    decreases m
  {
    if m == 0 then rv else WarmedUp(refl, RandomVariables.Sample(refl, rv, 1), m - 1)
  }

  /**
   * The warm-up loop from position `k` on: each variable is sampled once (`sample(1)`,
   * which redraws only generator-mode variables) and replaced by its first sample;
   * plain arguments are kept. An empty sample-mode pool has no first sample.
   */
  function WarmUpFrom<V>(refl: Reflection<V>, store: seq<RandomVariable<V>>, initial: seq<Arg<V>>, k: nat)
    : (r: (seq<RandomVariable<V>>, Result<seq<V>>))
    requires k <= |initial| && RefsValid(initial, store)
    decreases |initial| - k
    ensures Preserves(store, r.0)
    ensures forall id :: 0 <= id < |store| && !RefersTo(initial, k, id) ==> r.0[id] == store[id]
    ensures r.1.Ok? <==> forall i :: k <= i < |initial| && IsSampleRef(store, initial, i) ==> PoolLength(store, initial, i) > 0
    ensures r.1.Err? ==> r.1.error == IndexError
    ensures r.1.Ok? ==> |r.1.value| == |initial| - k
    ensures r.1.Ok? ==> forall i :: k <= i < |initial| && initial[i].Plain? ==> r.1.value[i - k] == initial[i].value
    ensures r.1.Ok? ==> forall i :: k <= i < |initial| && IsSampleRef(store, initial, i) ==>
      r.1.value[i - k] == store[initial[i].id].pool[0]
  {
    if k == |initial| then (store, Ok([]))
    else match initial[k]
      case Plain(v) =>
        var (s, rest) := WarmUpFrom(refl, store, initial, k + 1);
        (s, if rest.Ok? then Ok([v] + rest.value) else rest)
      case Ref(id) =>
        var rv := RandomVariables.Sample(refl, store[id], 1);
        var s1 := store[id := rv];
        var pool := rv.Samples().value;
        if |pool| == 0 then
          assert IsSampleRef(store, initial, k) && PoolLength(store, initial, k) == 0;
          (s1, Err(IndexError))
        else
          var (s, rest) := WarmUpFrom(refl, s1, initial, k + 1);
          assert forall i :: k < i < |initial| ==> (IsSampleRef(s1, initial, i) <==> IsSampleRef(store, initial, i));
          (s, if rest.Ok? then Ok([pool[0]] + rest.value) else rest)
  }

  /**
   * After a successful warm-up every variable has been sampled once per position that
   * passes it, and nothing else has happened to it.
   */
  lemma {:induction false} WarmUpState<V>(refl: Reflection<V>, store: seq<RandomVariable<V>>, initial: seq<Arg<V>>, k: nat)
    requires k <= |initial| && RefsValid(initial, store)
    decreases |initial| - k, 1
    ensures WarmUpSampledPerPosition(refl, store, initial, k)
  {
    if k < |initial| {
      match initial[k]
      case Plain(v) =>
        WarmUpState(refl, store, initial, k + 1);
        var r := WarmUpFrom(refl, store, initial, k);
        if r.1.Ok? {
          assert r.0 == WarmUpFrom(refl, store, initial, k + 1).0;
          forall id | 0 <= id < |store|
            ensures Occurrences(initial, k, |initial|, id) == Occurrences(initial, k + 1, |initial|, id) {}
        }
      case Ref(id) =>
        WarmUpStateAtRef(refl, store, initial, k);
    }
  }

  /** What a successful warm-up from position `k` on leaves in the store. */
  ghost predicate WarmUpSampledPerPosition<V>(refl: Reflection<V>, store: seq<RandomVariable<V>>, initial: seq<Arg<V>>, k: nat)
    requires k <= |initial| && RefsValid(initial, store)
  {
    var r := WarmUpFrom(refl, store, initial, k);
    r.1.Ok? ==> forall id :: 0 <= id < |store| ==> r.0[id] == WarmedUp(refl, store[id], Occurrences(initial, k, |initial|, id))
  }

  /** The step of `WarmUpState` at a position that passes a variable. */
  lemma {:induction false} WarmUpStateAtRef<V>(refl: Reflection<V>, store: seq<RandomVariable<V>>, initial: seq<Arg<V>>, k: nat)
    requires k < |initial| && RefsValid(initial, store) && initial[k].Ref?
    decreases |initial| - k, 0
    ensures WarmUpSampledPerPosition(refl, store, initial, k)
  {
    var id := initial[k].id;
    var rv := RandomVariables.Sample(refl, store[id], 1);
    var s1 := store[id := rv];
    if |rv.Samples().value| > 0 {
      WarmUpState(refl, s1, initial, k + 1);
      var r := WarmUpFrom(refl, store, initial, k);
      var rest := WarmUpFrom(refl, s1, initial, k + 1);
      if r.1.Ok? {
        assert rest.1.Ok? && r.0 == rest.0;
        forall j | 0 <= j < |store|
          ensures r.0[j] == WarmedUp(refl, store[j], Occurrences(initial, k, |initial|, j))
        {
          assert Occurrences(initial, k, |initial|, j) == (if j == id then 1 else 0) + Occurrences(initial, k + 1, |initial|, j);
          if j == id {
            assert WarmedUp(refl, store[j], Occurrences(initial, k, |initial|, j)) ==
              WarmedUp(refl, s1[j], Occurrences(initial, k + 1, |initial|, j));
          }
        }
      }
    }
  }

  /**
   * After a successful warm-up a generator-mode variable at position `i` passes the
   * first draw of its `sample(1)`, taken after the calls for the earlier positions
   * that pass the same variable.
   */
  lemma {:induction false} WarmUpValues<V>(refl: Reflection<V>, store: seq<RandomVariable<V>>, initial: seq<Arg<V>>, k: nat)
    requires k <= |initial| && RefsValid(initial, store)
    decreases |initial| - k, 1
    ensures WarmUpDrawsPassed(refl, store, initial, k)
  {
    if k < |initial| {
      match initial[k]
      case Plain(v) =>
        WarmUpValues(refl, store, initial, k + 1);
        var r := WarmUpFrom(refl, store, initial, k);
        var rest := WarmUpFrom(refl, store, initial, k + 1);
        if r.1.Ok? {
          assert rest.1.Ok? && r.1.value == [v] + rest.1.value;
          forall i | k < i < |initial| && initial[i].Ref?
            ensures Occurrences(initial, k, i, initial[i].id) == Occurrences(initial, k + 1, i, initial[i].id) {}
        }
      case Ref(id) =>
        WarmUpValuesAtRef(refl, store, initial, k);
    }
  }

  /** The values a successful warm-up passes from position `k` on, for generator-mode variables. */
  ghost predicate WarmUpDrawsPassed<V>(refl: Reflection<V>, store: seq<RandomVariable<V>>, initial: seq<Arg<V>>, k: nat)
    requires k <= |initial| && RefsValid(initial, store)
  {
    var r := WarmUpFrom(refl, store, initial, k);
    r.1.Ok? ==> forall i :: k <= i < |initial| && initial[i].Ref? && store[initial[i].id].GeneratorBacked? ==>
      r.1.value[i - k] == WarmUpDraw(refl, WarmedUp(refl, store[initial[i].id], Occurrences(initial, k, i, initial[i].id)))
  }

  /** The step of `WarmUpValues` at a position that passes a variable. */
  lemma {:induction false} WarmUpValuesAtRef<V>(refl: Reflection<V>, store: seq<RandomVariable<V>>, initial: seq<Arg<V>>, k: nat)
    requires k < |initial| && RefsValid(initial, store) && initial[k].Ref?
    decreases |initial| - k, 0
    ensures WarmUpDrawsPassed(refl, store, initial, k)
  {
    var id := initial[k].id;
    var rv := RandomVariables.Sample(refl, store[id], 1);
    var s1 := store[id := rv];
    if |rv.Samples().value| > 0 {
      WarmUpValues(refl, s1, initial, k + 1);
      var r := WarmUpFrom(refl, store, initial, k);
      var rest := WarmUpFrom(refl, s1, initial, k + 1);
      if r.1.Ok? {
        assert rest.1.Ok? && r.1.value == [rv.Samples().value[0]] + rest.1.value;
        forall i | k <= i < |initial| && initial[i].Ref? && store[initial[i].id].GeneratorBacked?
          ensures r.1.value[i - k] ==
            WarmUpDraw(refl, WarmedUp(refl, store[initial[i].id], Occurrences(initial, k, i, initial[i].id)))
        {
          var j := initial[i].id;
          if i > k {
            assert r.1.value[i - k] == rest.1.value[i - (k + 1)];
            assert Occurrences(initial, k, i, j) == (if j == id then 1 else 0) + Occurrences(initial, k + 1, i, j);
            if j == id {
              assert WarmedUp(refl, store[j], Occurrences(initial, k, i, j)) ==
                WarmedUp(refl, s1[j], Occurrences(initial, k + 1, i, j));
            }
          }
        }
      }
    }
  }

  function WarmUp<V>(refl: Reflection<V>, store: seq<RandomVariable<V>>, initial: seq<Arg<V>>)
    : (r: (seq<RandomVariable<V>>, Result<seq<V>>))
    requires RefsValid(initial, store)
  {
    WarmUpFrom(refl, store, initial, 0)
  }

  /**
   * The materialisation loop from position `k` on: every variable still in generator
   * mode is sampled to `n` and switched to sample mode.
   */
  function Materialise<V>(refl: Reflection<V>, store: seq<RandomVariable<V>>, initial: seq<Arg<V>>, k: nat, n: int)
    : (r: seq<RandomVariable<V>>)
    requires k <= |initial| && RefsValid(initial, store)
    decreases |initial| - k
    ensures |r| == |store|
    ensures forall id :: 0 <= id < |store| && store[id].SampleBacked? ==> r[id] == store[id]
    ensures forall id :: 0 <= id < |store| && !RefersTo(initial, k, id) ==> r[id] == store[id]
    ensures forall i :: k <= i < |initial| && initial[i].Ref? ==> r[initial[i].id].SampleBacked?
    ensures forall id :: 0 <= id < |store| && store[id].GeneratorBacked? && RefersTo(initial, k, id) ==>
      |r[id].pool| == Count(n) && r[id].example == store[id].example
  {
    if k == |initial| then store
    else if initial[k].Ref? && store[initial[k].id].GeneratorBacked? then
      var id := initial[k].id;
      var s := RandomVariables.Sample(refl, store[id], n);
      Materialise(refl, store[id := SampleBacked(s.drawn.value, s.example, s.typeName)], initial, k + 1, n)
    else
      Materialise(refl, store, initial, k + 1, n)
  }

  /**
   * Materialisation replaces each referenced generator-mode variable by a sample-mode
   * variable over exactly the pool its `sample(n)` drew, keeping its representative.
   */
  lemma {:induction false} MaterialisedDraws<V>(refl: Reflection<V>, store: seq<RandomVariable<V>>, initial: seq<Arg<V>>,
                                                k: nat, n: int)
    requires k <= |initial| && RefsValid(initial, store)
    decreases |initial| - k
    ensures var r := Materialise(refl, store, initial, k, n);
      forall id :: 0 <= id < |store| && store[id].GeneratorBacked? && RefersTo(initial, k, id) ==>
        r[id] == SampleBacked(RandomVariables.Sample(refl, store[id], n).drawn.value, store[id].example, store[id].typeName)
  {
    if k < |initial| {
      if initial[k].Ref? && store[initial[k].id].GeneratorBacked? {
        var id := initial[k].id;
        var s := RandomVariables.Sample(refl, store[id], n);
        MaterialisedDraws(refl, store[id := SampleBacked(s.drawn.value, s.example, s.typeName)], initial, k + 1, n);
      } else {
        MaterialisedDraws(refl, store, initial, k + 1, n);
      }
    }
  }

  /**
   * The warm-up draw is discarded: for one generator-mode argument whose generator has
   * no bulk form, the warm-up call sees invocation `c+1`, while the pool the Monte Carlo
   * loop reads starts at invocation `c+3`. Output index 0 therefore does not belong to
   * input index 0.
   */
  lemma WarmUpDrawIsDiscarded<V>(refl: Reflection<V>, rv: RandomVariable<V>, n: int)
    requires rv.GeneratorBacked? && forall c: nat, m: int :: Bulk(rv.gen, c, m).None?
    requires n >= 1
    ensures
      var c := rv.gen.calls;
      var warm := WarmUp(refl, [rv], [Ref(0)]);
      var s := Materialise(refl, warm.0, [Ref(0)], 0, n);
      warm.1 == Ok([Draw(rv.gen, c + 1)]) &&
      s[0].SampleBacked? && |s[0].pool| == n &&
      forall t :: 0 <= t < n ==> s[0].pool[t] == Draw(rv.gen, c + 3 + t)
  {
    var c := rv.gen.calls;
    var w := RandomVariables.Sample(refl, rv, 1);
    assert !RandomVariables.BulkValid(refl, rv, 1);
    assert w.Samples().value == [Draw(rv.gen, c + 1)];
    var initial: seq<Arg<V>> := [Ref(0)];
    assert [rv][0 := w] == [w];
    assert WarmUpFrom(refl, [w], initial, 1) == ([w], Ok([]));
    assert initial[0] == Ref(0) && |initial| == 1;
    assert WarmUpFrom(refl, [rv], initial, 0) == ([w], Ok([w.Samples().value[0]] + []));
    assert [w.Samples().value[0]] + [] == [Draw(rv.gen, c + 1)];
    assert WarmUp(refl, [rv], initial) == ([w], Ok([Draw(rv.gen, c + 1)]));
    assert Bulk(w.gen, w.gen.calls, n) == Bulk(rv.gen, w.gen.calls, n);
    assert !RandomVariables.BulkValid(refl, w, n);
    var m := RandomVariables.Sample(refl, w, n);
    assert Materialise(refl, [w], [Ref(0)], 0, n) == [SampleBacked(m.drawn.value, m.example, m.typeName)];
  }

  /**
   * After warm-up and materialisation every referenced variable is in sample mode
   * with a pool of exactly `Count(n)` samples.
   */
  lemma MaterialisedPools<V>(refl: Reflection<V>, store: seq<RandomVariable<V>>, initial: seq<Arg<V>>, cfg: Config)
    requires RefsValid(initial, store)
    requires ResolveCount(store, initial).Ok? && WarmUp(refl, store, initial).1.Ok?
    ensures
      var n := SampleCount(cfg, ResolveCount(store, initial).value);
      var s := Materialise(refl, WarmUp(refl, store, initial).0, initial, 0, n);
      forall i :: 0 <= i < |initial| && initial[i].Ref? ==>
        initial[i].id < |s| && s[initial[i].id].SampleBacked? && |s[initial[i].id].pool| == Count(n)
  {
    var c := ResolveCount(store, initial).value;
    var n := SampleCount(cfg, c);
    var w := WarmUp(refl, store, initial).0;
    var s := Materialise(refl, w, initial, 0, n);
    forall i | 0 <= i < |initial| && initial[i].Ref?
      ensures initial[i].id < |s| && s[initial[i].id].SampleBacked? && |s[initial[i].id].pool| == Count(n)
    {
      var id := initial[i].id;
      assert RefersTo(initial, 0, id);
      if store[id].SampleBacked? {
        assert IsSampleRef(store, initial, i);
        assert PoolLength(store, initial, i) == c;
      }
    }
  }

  /**
   * What the wrapped call does once some argument is a random variable: resolve the
   * sample count, warm up, sample the generator-mode variables and run the Monte Carlo loop.
   */
  ghost predicate Propagated<V>(cfg: Config, foo: Callee<V>, refl: Reflection<V>, store: seq<RandomVariable<V>>,
                                initial: seq<Arg<V>>, inv: Invocation<V>)
    requires RefsValid(initial, store)
  {
    !(inv.result.Ok? && inv.result.value.Direct?) &&
    // disagreeing pools fail before anything is sampled
    (ResolveCount(store, initial).Err? ==> inv == Invocation(Err(AssertionError), store, 0)) &&
    // an empty sample-mode pool has no warm-up sample
    (ResolveCount(store, initial).Ok? && WarmUp(refl, store, initial).1.Err? ==>
      inv == Invocation(Err(IndexError), WarmUp(refl, store, initial).0, 0)) &&
    (ResolveCount(store, initial).Ok? && WarmUp(refl, store, initial).1.Ok? ==>
      var warm := WarmUp(refl, store, initial);
      var first := foo.call(warm.1.value, []);
      // what the first timing call raises passes through, with the variables warmed up
      (first.Err? ==> inv == Invocation(Err(first.error), warm.0, 1)) &&
      (first.Ok? ==>
        var n := SampleCount(cfg, ResolveCount(store, initial).value);
        var s := Materialise(refl, warm.0, initial, 0, n);
        var y := first.value;
        // the variables as the call leaves them: generator mode switched to sample mode with n samples
        inv.store == s &&
        (forall id :: 0 <= id < |store| && store[id].SampleBacked? ==> inv.store[id] == store[id]) &&
        (forall i :: 0 <= i < |initial| && initial[i].Ref? ==>
           inv.store[initial[i].id].SampleBacked? && |inv.store[initial[i].id].pool| == Count(n)) &&
        // every pool read of the loop is in bounds
        (forall t :: 0 <= t < n ==> ReadableAt(s, initial, t)) &&
        // later, the call fails only when `foo` raises or its result does not fit the first result's arity
        (inv.result.Ok? <==> forall t :: 1 <= t < n ==> RowAt(refl, foo, s, initial, y, t).Ok?) &&
        (inv.result.Ok? ==>
           inv.fooCalls == WarmUpCalls + Count(n - 1) &&
           (inv.result.value.Single? <==> !Tupled(refl, y)) &&
           ColumnsFit(refl, foo, s, initial, y, n, Columns(inv.result.value))) &&
        // and then with the first failing index's error, after `foo` ran for the loop indices 1 .. t
        (inv.result.Err? ==>
           var t := inv.fooCalls - WarmUpCalls;
           1 <= t < n && FirstFailure(refl, foo, s, initial, y, t) && inv.result == Err(RowAt(refl, foo, s, initial, y, t).error))))
  }

  /** The wrapped call once some argument is a random variable. */
  method Propagate<V>(cfg: Config, foo: Callee<V>, refl: Reflection<V>, store: seq<RandomVariable<V>>,
                      initial: seq<Arg<V>>) returns (inv: Invocation<V>)
    requires RefsValid(initial, store)
    ensures Propagated(cfg, foo, refl, store, initial, inv)
  {
    var count := ResolveCount(store, initial);
    if count.Err? {
      return Invocation(Err(AssertionError), store, 0);
    }
    var warm := WarmUp(refl, store, initial);
    if warm.1.Err? {
      return Invocation(Err(IndexError), warm.0, 0);
    }
    // the last of the timing calls on the warm-up arguments
    var first := foo.call(warm.1.value, []);
    if first.Err? {
      return Invocation(Err(first.error), warm.0, 1);
    }
    var y := first.value;
    var n := SampleCount(cfg, count.value);
    var s := Materialise(refl, warm.0, initial, 0, n);
    MaterialisedPools(refl, store, initial, cfg);
    var result, calls := Simulate(refl, foo, s, initial, y, n);
    inv := Invocation(result, s, WarmUpCalls + calls);
  }

  /**
   * The wrapped call `inner(*args, **kwargs)`. `store` holds the random variables the
   * arguments refer to, and the invocation returns them as the call leaves them.
   */
  method Randify<V>(cfg: Config, foo: Callee<V>, refl: Reflection<V>, store: seq<RandomVariable<V>>,
                    args: seq<Arg<V>>, kwargs: seq<(string, Arg<V>)>) returns (inv: Invocation<V>)
    requires RefsValid(Initial(args, kwargs), store)
    // without random arguments the call is transparent
    ensures !HasRandom(Initial(args, kwargs)) ==>
      (forall i :: 0 <= i < |args| ==> args[i].Plain?) &&
      (forall i :: 0 <= i < |kwargs| ==> kwargs[i].1.Plain?) &&
      var direct := foo.call(Values(args), KeywordValues(kwargs));
      inv.store == store && inv.fooCalls == 1 &&
      (direct.Ok? ==> inv.result == Ok(Direct(direct.value))) &&
      (direct.Err? ==> inv.result == Err(direct.error))
    // with one, every call goes through the sampling engine
    ensures HasRandom(Initial(args, kwargs)) ==> Propagated(cfg, foo, refl, store, Initial(args, kwargs), inv)
  {
    var initial := Initial(args, kwargs);
    var indices := RandomIndices(initial);
    if |indices| == 0 {
      assert forall i :: 0 <= i < |args| ==> initial[i] == args[i];
      assert forall i :: 0 <= i < |kwargs| ==> initial[|args| + i] == kwargs[i].1;
      var direct := foo.call(Values(args), KeywordValues(kwargs));
      var result := if direct.Ok? then Ok(Direct(direct.value)) else Err(direct.error);
      return Invocation(result, store, 1);
    }
    assert initial[indices[0]].Ref?;
    inv := Propagate(cfg, foo, refl, store, initial);
  }
}

=== FILE: random_variables.dfy ===
/** The newer `RandomVariable` class: keyword `generator_func`, bulk sampling, four moments. */
module RandomVariables {
  import opened Outcomes
  import opened Host
  import opened Variables
  import Moments

  const GeneratorKeyword: string := "generator_func"

  /** `RandomVariable(*args, **kwargs)` with the `generator_func` keyword. */
  function Construct<V>(refl: Reflection<V>, args: seq<PyArg<V>>, kwargs: seq<(string, PyArg<V>)>): (r: Result<RandomVariable<V>>)
    ensures (!ListFirst(args) && Lookup(kwargs, "samples").None? && !CallableFirst(args)) ==>
      (r.Ok? <==> Lookup(kwargs, GeneratorKeyword).Some? && Lookup(kwargs, GeneratorKeyword).value.Callable?)
    ensures r.Ok? && r.value.GeneratorBacked? ==> r.value.gen.calls == 1 && r.value.example == Draw(r.value.gen, 0)
    ensures r.Ok? && r.value.GeneratorBacked? && !CallableFirst(args) ==>
      r.value.gen.args == [] && Lookup(r.value.gen.kwargs, GeneratorKeyword).None?
  {
    Variables.Construct(refl, args, kwargs, GeneratorKeyword)
  }

  /** The values of `n` consecutive single invocations, starting with invocation `start`. */
  function Draws<V>(g: Generator<V>, start: nat, n: nat): (r: seq<V>)
    ensures |r| == n
    ensures forall k :: 0 <= k < n ==> r[k] == Draw(g, start + k)
  {
    seq(n, k requires 0 <= k < n => Draw(g, start + k))
  }

  /**
   * The bulk result passes both assertions of `sample`: it has length `n` and its first
   * element is an instance of the representative's type, a subclass included (so it is
   * non-empty).
   */
  predicate BulkValid<V>(refl: Reflection<V>, rv: RandomVariable<V>, n: int)
    requires rv.GeneratorBacked?
  {
    var b := Bulk(rv.gen, rv.gen.calls, n);
    b.Some? && |b.value| == n && n > 0 && refl.isInstanceOf(b.value[0], rv.example)
  }

  /**
   * `sample(n)`: in generator mode the pool is replaced by the bulk result when it is
   * valid and by `n` sequential draws otherwise; in sample mode nothing happens.
   * The mode never changes here.
   */
  function Sample<V>(refl: Reflection<V>, rv: RandomVariable<V>, n: int): (r: RandomVariable<V>)
    ensures rv.SampleBacked? ==> r == rv
    ensures rv.GeneratorBacked? ==>
      r.GeneratorBacked? && r.example == rv.example && r.typeName == rv.typeName &&
      r.gen.func == rv.gen.func && r.gen.args == rv.gen.args && r.gen.kwargs == rv.gen.kwargs &&
      r.drawn.Some? && |r.drawn.value| == Count(n)
    ensures rv.GeneratorBacked? && BulkValid(refl, rv, n) ==>
      r.drawn == Bulk(rv.gen, rv.gen.calls, n) && r.gen.calls == rv.gen.calls + 1
    ensures rv.GeneratorBacked? && !BulkValid(refl, rv, n) ==>
      r.gen.calls == rv.gen.calls + 1 + Count(n) &&
      forall k :: 0 <= k < Count(n) ==> r.drawn.value[k] == Draw(rv.gen, rv.gen.calls + 1 + k)
  {
    match rv
    case SampleBacked(_, _, _) => rv
    case GeneratorBacked(g, _, example, typeName) =>
      if BulkValid(refl, rv, n) then
        GeneratorBacked(g.(calls := g.calls + 1), Bulk(g, g.calls, n), example, typeName)
      else
        GeneratorBacked(g.(calls := g.calls + 1 + Count(n)), Some(Draws(g, g.calls + 1, Count(n))), example, typeName)
  }

  /** Sampling overwrites: the pool a variable held before `sample(n)` has no influence on the result. */
  lemma SampleOverwrites<V>(refl: Reflection<V>, rv: RandomVariable<V>, old1: Option<seq<V>>, old2: Option<seq<V>>, n: int)
    requires rv.GeneratorBacked?
    ensures Sample(refl, rv.(drawn := old1), n) == Sample(refl, rv.(drawn := old2), n)
  {}

  /** The numeric pool the moment formulas fold over. */
  function Pool<V>(refl: Reflection<V>, rv: RandomVariable<V>): (r: Result<seq<real>>)
    ensures r.Ok? <==> rv.Samples().Some? && Numbers(refl, rv.Samples().value).Some?
    ensures r.Ok? ==> r.value == Numbers(refl, rv.Samples().value).value
    ensures r.Err? ==> r.error == (if rv.Samples().None? then AttributeError else TypeError)
  {
    match rv.Samples()
    case None => Err(AttributeError)
    case Some(xs) =>
      match Numbers(refl, xs)
      case None => Err(TypeError)
      case Some(ys) => Ok(ys)
  }

  /** `expected_value()`: the mean of the pool; an empty pool divides by zero. */
  function ExpectedValue<V>(refl: Reflection<V>, rv: RandomVariable<V>): (r: Result<real>)
    ensures r.Ok? <==> Pool(refl, rv).Ok? && |Pool(refl, rv).value| > 0
    ensures r.Ok? ==> r.value * (|Pool(refl, rv).value| as real) == Moments.Sum(Pool(refl, rv).value)
    ensures r.Err? ==> r.error == (if Pool(refl, rv).Err? then Pool(refl, rv).error else ZeroDivisionError)
  {
    var xs :- Pool(refl, rv);
    Moments.ExpectedValue(xs)
  }

  /** `variance()`: Bessel-corrected; defined from two samples on, and zero exactly on a constant pool. */
  function Variance<V>(refl: Reflection<V>, rv: RandomVariable<V>): (r: Result<real>)
    ensures r.Ok? <==> Pool(refl, rv).Ok? && |Pool(refl, rv).value| >= 2
    ensures r.Ok? ==> r.value >= 0.0 && (r.value == 0.0 <==> Moments.Constant(Pool(refl, rv).value))
    ensures r.Ok? ==>
      var xs := Pool(refl, rv).value;
      r.value * ((|xs| - 1) as real) == Moments.CentralSum(xs, Moments.Mean(xs), 2)
    ensures r.Err? ==> r.error == (if Pool(refl, rv).Err? then Pool(refl, rv).error else ZeroDivisionError)
  {
    var xs :- Pool(refl, rv);
    var v := Moments.Variance(xs);
    if |xs| >= 2 then Moments.VarianceZeroIffConstant(xs); v else v
  }

  /** `skewness()`, with `root` standing for `variance ** 1.5`. */
  function Skewness<V>(refl: Reflection<V>, rv: RandomVariable<V>, root: real -> real): (r: Result<real>)
    ensures r.Ok? ==> Pool(refl, rv).Ok? && |Pool(refl, rv).value| >= 2
    ensures Moments.ExactRoot(root) ==>
      (r.Ok? <==> Pool(refl, rv).Ok? && |Pool(refl, rv).value| >= 3 && !Moments.Constant(Pool(refl, rv).value))
    ensures r.Ok? ==>
      var xs := Pool(refl, rv).value;
      r.value * Moments.SkewnessDenominator(|xs|, Moments.Variance(xs).value, root) == Moments.SkewnessNumerator(xs)
    ensures r.Err? ==> r.error == (if Pool(refl, rv).Err? then Pool(refl, rv).error else ZeroDivisionError)
  {
    var xs :- Pool(refl, rv);
    Moments.SkewnessDefinedIff(xs, root);
    Moments.Skewness(xs, root)
  }

  /** `kurtosis()`: defined from four samples on, for a pool that is not constant, and never negative. */
  function Kurtosis<V>(refl: Reflection<V>, rv: RandomVariable<V>): (r: Result<real>)
    ensures r.Ok? <==> Pool(refl, rv).Ok? && |Pool(refl, rv).value| >= 4 && !Moments.Constant(Pool(refl, rv).value)
    ensures r.Ok? ==> r.value >= 0.0
    ensures r.Ok? ==>
      var xs := Pool(refl, rv).value;
      r.value * Moments.KurtosisDenominator(|xs|, Moments.Variance(xs).value) == Moments.KurtosisNumerator(xs)
    ensures r.Err? ==> r.error == (if Pool(refl, rv).Err? then Pool(refl, rv).error else ZeroDivisionError)
  {
    match Pool(refl, rv)
    case Err(e) => Err(e)
    case Ok(xs) =>
      var k := Moments.Kurtosis(xs);
      Moments.KurtosisDefinedIff(xs);
      Moments.KurtosisNonNegative(xs);
      k
  }
}

=== FILE: variables.dfy ===
/**
 * The random-variable value shared by both generations of the library, and the
 * constructor dispatch both generations implement.
 */
module Variables {
  import opened Outcomes
  import opened Host

  /** A bound sampling callable and the number of times it has been invoked so far. */
  datatype Generator<!V> = Generator(
    func: GenFunc<V>,
    args: seq<PyArg<V>>,
    kwargs: seq<(string, PyArg<V>)>,
    calls: nat)

  /** `len(range(n))`: how many sequential draws `sample(n)` makes. */
  function Count(n: int): nat {
    if n < 0 then 0 else n
  }

  /** The value of the generator's k-th plain invocation on its bound arguments. */
  function Draw<V>(g: Generator<V>, k: nat): V {
    g.func.draw(Bind(g.args, g.kwargs), k)
  }

  /** The result of the generator's k-th invocation on its bound arguments with `size=n`. */
  function Bulk<V>(g: Generator<V>, k: nat, n: int): Option<seq<V>> {
    g.func.bulk(Bind(g.args, g.kwargs), k, n)
  }

  /**
   * A random variable in sample mode (an explicit pool) or generator mode (a bound
   * sampling callable, plus the pool of its last `sample` call, if any).
   * `example` is the representative value computed at construction and `typeName`
   * its Python type name.
   */
  datatype RandomVariable<!V> =
    | SampleBacked(pool: seq<V>, example: V, typeName: string)
    | GeneratorBacked(gen: Generator<V>, drawn: Option<seq<V>>, example: V, typeName: string)
  {
    /** The `samples` attribute; None when a generator-mode variable was never sampled. */
    function Samples(): Option<seq<V>> {
      if SampleBacked? then Some(pool) else drawn
    }
  }

  /** The first value bound to `key`, as `key in kwargs` / `kwargs[key]` see it. */
  function Lookup<A>(kwargs: seq<(string, A)>, key: string): (r: Option<A>)
    ensures r.Some? <==> exists i :: 0 <= i < |kwargs| && kwargs[i].0 == key
    ensures r.Some? ==> (key, r.value) in kwargs
  {
    if |kwargs| == 0 then None
    else if kwargs[0].0 == key then Some(kwargs[0].1)
    else Lookup(kwargs[1..], key)
  }

  /** The keyword arguments left after `kwargs.pop(key)`, in their original order. */
  function Without<A>(kwargs: seq<(string, A)>, key: string): (r: seq<(string, A)>)
    ensures forall i :: 0 <= i < |r| ==> r[i] in kwargs && r[i].0 != key
    ensures forall i :: 0 <= i < |kwargs| && kwargs[i].0 != key ==> kwargs[i] in r
    ensures |r| <= |kwargs|
  {
    if |kwargs| == 0 then []
    else if kwargs[0].0 == key then Without(kwargs[1..], key)
    else [kwargs[0]] + Without(kwargs[1..], key)
  }

  /** Sample mode over `items`: the representative is the first item, so an empty pool fails. */
  function FromPool<V>(refl: Reflection<V>, items: seq<V>): (r: Result<RandomVariable<V>>)
    ensures r.Ok? <==> |items| > 0
    ensures r.Ok? ==> r.value.SampleBacked? && r.value.pool == items && r.value.example == items[0]
    ensures r.Err? ==> r.error == IndexError
  {
    if |items| == 0 then Err(IndexError)
    else Ok(SampleBacked(items, items[0], refl.typeName(items[0])))
  }

  /** Generator mode: the representative is exactly one fresh invocation of the generator. */
  function FromGenerator<V>(refl: Reflection<V>, g: Generator<V>): (r: RandomVariable<V>)
    ensures r.GeneratorBacked? && r.drawn.None?
    ensures r.gen == g.(calls := g.calls + 1)
    ensures r.example == Draw(g, g.calls)
  {
    var x := Draw(g, g.calls);
    GeneratorBacked(g.(calls := g.calls + 1), None, x, refl.typeName(x))
  }

  predicate ListFirst<V>(args: seq<PyArg<V>>) {
    |args| > 0 && args[0].List?
  }

  predicate CallableFirst<V>(args: seq<PyArg<V>>) {
    |args| > 0 && args[0].Callable?
  }

  /**
   * The constructor `RandomVariable(*args, **kwargs)`. The checks run in this order:
   * a positional list, a `samples` keyword, a positional callable, the generator
   * keyword (`generatorKey`, whose name differs between the two generations),
   * otherwise ValueError.
   */
  function Construct<V>(refl: Reflection<V>, args: seq<PyArg<V>>, kwargs: seq<(string, PyArg<V>)>,
                        generatorKey: string): (r: Result<RandomVariable<V>>)
    // 1. a positional list is the pool
    ensures ListFirst(args) ==>
      (r.Ok? <==> |args[0].items| > 0) &&
      (r.Ok? ==> r.value.SampleBacked? && r.value.pool == args[0].items)
    // 2. else a `samples` keyword is the pool, and must be subscriptable
    ensures !ListFirst(args) && Lookup(kwargs, "samples").Some? ==>
      var a := Lookup(kwargs, "samples").value;
      (r.Ok? <==> (a.List? || a.Sequence?) && |a.items| > 0) &&
      (r.Ok? ==> r.value.SampleBacked? && r.value.pool == a.items)
    // 3. else a positional callable is bound to the remaining positionals and every keyword
    ensures !ListFirst(args) && Lookup(kwargs, "samples").None? && CallableFirst(args) ==>
      r.Ok? && r.value.GeneratorBacked? &&
      r.value.gen == Generator(args[0].func, args[1..], kwargs, 1) &&
      r.value.example == Draw(r.value.gen, 0)
    // 4. else the generator keyword is bound with no positionals and the other keywords
    ensures (!ListFirst(args) && Lookup(kwargs, "samples").None? && !CallableFirst(args)
             && Lookup(kwargs, generatorKey).Some?) ==>
      var a := Lookup(kwargs, generatorKey).value;
      (r.Ok? <==> a.Callable?) &&
      (r.Ok? ==> r.value.GeneratorBacked? &&
                 r.value.gen == Generator(a.func, [], Without(kwargs, generatorKey), 1) &&
                 r.value.example == Draw(r.value.gen, 0))
    // 5. otherwise the construction is invalid
    ensures (!ListFirst(args) && Lookup(kwargs, "samples").None? && !CallableFirst(args)
             && Lookup(kwargs, generatorKey).None?) ==> r == Err(ValueError)
    // the representative is always the first pool item in sample mode
    ensures r.Ok? && r.value.SampleBacked? ==> |r.value.pool| > 0 && r.value.example == r.value.pool[0]
    ensures r.Ok? ==> r.value.typeName == refl.typeName(r.value.example)
  {
    if ListFirst(args) then
      FromPool(refl, args[0].items)
    else if Lookup(kwargs, "samples").Some? then
      var a := Lookup(kwargs, "samples").value;
      if a.List? || a.Sequence? then FromPool(refl, a.items) else Err(TypeError)
    else if CallableFirst(args) then
      Ok(FromGenerator(refl, Generator(args[0].func, args[1..], kwargs, 0)))
    else if Lookup(kwargs, generatorKey).Some? then
      var a := Lookup(kwargs, generatorKey).value;
      if a.Callable? then Ok(FromGenerator(refl, Generator(a.func, [], Without(kwargs, generatorKey), 0)))
      else Err(TypeError)
    else
      Err(ValueError)
  }

  const StrPrefix: string := "<RandomVariable of type "
  const CustomName: string := "custom"

  /** The name `__str__` shows for the distribution: the generator's name, or "custom". */
  function DistributionName<V>(rv: RandomVariable<V>): string {
    if rv.GeneratorBacked? then rv.gen.func.name else CustomName
  }

  /** The text `__str__` renders (both generations use the same format). */
  function Describe<V>(rv: RandomVariable<V>): string {
    StrPrefix + rv.typeName + " with " + DistributionName(rv) + " distribution"
  }

  /** `[getattr(x, p) for x in xs]`; None when some sample lacks the attribute. */
  function Attrs<V>(refl: Reflection<V>, xs: seq<V>, p: string): (r: Option<seq<V>>)
    ensures r.Some? <==> forall i :: 0 <= i < |xs| ==> refl.getAttr(xs[i], p).Some?
    ensures r.Some? ==> (|r.value| == |xs| &&
      forall i :: 0 <= i < |xs| ==> refl.getAttr(xs[i], p) == Some(r.value[i]))
  {
    if |xs| == 0 then Some([])
    else match refl.getAttr(xs[0], p)
      case None => None
      case Some(a) =>
        match Attrs(refl, xs[1..], p)
        case None => None
        case Some(rest) => Some([a] + rest)
  }

  /** The pool read as numbers; None when `sum` would meet a non-numeric sample. */
  function Numbers<V>(refl: Reflection<V>, xs: seq<V>): (r: Option<seq<real>>)
    ensures r.Some? <==> forall i :: 0 <= i < |xs| ==> refl.asReal(xs[i]).Some?
    ensures r.Some? ==> (|r.value| == |xs| &&
      forall i :: 0 <= i < |xs| ==> refl.asReal(xs[i]) == Some(r.value[i]))
  {
    if |xs| == 0 then Some([])
    else match refl.asReal(xs[0])
      case None => None
      case Some(a) =>
        match Numbers(refl, xs[1..])
        case None => None
        case Some(rest) => Some([a] + rest)
  }

  /**
   * `__call__(property)`: the receiver itself for no property, otherwise a new
   * sample-mode variable over the attribute of every sample (identical in both
   * generations).
   */
  function Project<V>(refl: Reflection<V>, rv: RandomVariable<V>, property: Option<string>): (r: Result<RandomVariable<V>>)
    ensures property.None? ==> r == Ok(rv)
    ensures property.Some? ==>
      (r.Ok? <==> rv.Samples().Some? && |rv.Samples().value| > 0 &&
                  forall i :: 0 <= i < |rv.Samples().value| ==> refl.getAttr(rv.Samples().value[i], property.value).Some?)
    ensures property.Some? && r.Ok? ==>
      var xs := rv.Samples().value;
      r.value.SampleBacked? && |r.value.pool| == |xs| &&
      forall i :: 0 <= i < |xs| ==> Some(r.value.pool[i]) == refl.getAttr(xs[i], property.value)
    // the projection's representative is the first sample's attribute, and names its type
    ensures property.Some? && r.Ok? ==>
      Some(r.value.example) == refl.getAttr(rv.Samples().value[0], property.value) &&
      r.value.typeName == refl.typeName(r.value.example)
    ensures r.Err? ==> r.error == (if rv.Samples().Some? && |rv.Samples().value| == 0 then IndexError else AttributeError)
  {
    match property
    case None => Ok(rv)
    case Some(p) =>
      match rv.Samples()
      case None => Err(AttributeError)
      case Some(xs) =>
        match Attrs(refl, xs, p)
        case None => Err(AttributeError)
        case Some(ys) => FromPool(refl, ys)
  }

  /** `__str__` (and `__repr__`), identical in both generations. */
  function Str<V>(rv: RandomVariable<V>): (s: string)
    ensures StrPrefix + rv.typeName <= s
    ensures |s| > 0 && s[|s| - 1] != '>'
    ensures rv.GeneratorBacked? ==> s == StrPrefix + rv.typeName + " with " + rv.gen.func.name + " distribution"
    ensures rv.SampleBacked? ==> s == StrPrefix + rv.typeName + " with custom distribution"
  {
    var s := Describe(rv);
    assert s == (StrPrefix + rv.typeName) + (" with " + DistributionName(rv) + " distribution");
    s
  }

  /** `__repr__` delegates to `__str__`. */
  function Repr<V>(rv: RandomVariable<V>): (s: string)
    ensures s == Str(rv)
  {
    Str(rv)
  }

  /** A string framed by the same prefix and suffix determines its middle. */
  lemma FrameCancels(p: string, x: string, y: string, t: string)
    ensures p + x + t == p + y + t ==> x == y
  {
    if p + x + t == p + y + t {
      assert |x| == |y|;
      forall k | 0 <= k < |x| ensures x[k] == y[k] {
        assert (p + x + t)[|p| + k] == x[k];
        assert (p + y + t)[|p| + k] == y[k];
      }
    }
  }

  /**
   * Two variables of the same type render differently in sample and generator mode,
   * unless the generator itself is called "custom".
   */
  lemma StrRevealsMode<V>(a: RandomVariable<V>, b: RandomVariable<V>)
    requires a.SampleBacked? && b.GeneratorBacked? && a.typeName == b.typeName
    requires b.gen.func.name != CustomName
    ensures Str(a) != Str(b)
  {
    var p := StrPrefix + a.typeName + " with ";
    var tail := " distribution";
    assert Str(a) == p + CustomName + tail;
    assert Str(b) == p + b.gen.func.name + tail;
    FrameCancels(p, CustomName, b.gen.func.name, tail);
  }
}
